=== FILE: README.md ===
# A verified model of a Sudoku solving engine

This project models the solving engine of `sudoku.py` in Dafny and proves its
properties. The engine works on a 9x9 board of 81 cells. Each cell is either
final or open:

- A **final** cell holds a digit and a tag saying how the digit was obtained:
  `Already supplied`, `Strike`, `Elimination` or `Guess`.
- An **open** cell holds an ascending list of candidate digits.

The engine has three layers:

- **Propagation** (`simple_solver`) alternates two rules until neither places
  anything.
  - *Strike-out* removes every final digit from the candidates of its row,
    column and block peers. A peer cut down to one candidate is finalised with
    it, when that passes the conflict test.
  - *Hidden single* looks at each of the 27 units. A digit that only one open
    cell of the unit can still take is given to that cell, after the conflict
    test. A full strike-out sweep follows each such placement.
- **Search** picks the first open cell with the fewest candidates. It tries
  each candidate in list order on a copy of the board marked `Guess`,
  propagates, and searches again. As written, a copy that fails makes the
  loop move on to the cell that copy chose, so later candidates are guessed
  there (see Findings).
- **The driver** (`solve_board`) checks that a board was loaded, propagates,
  and searches. The loading itself is `load_board`, which turns 81 optional
  entries into cells.

## Modules

| module | file | contents |
|---|---|---|
| `Cells` | `cells.dfy` | the cell: construction, candidate removal |
| `Geometry` | `geometry.dfy` | row, column and block of a position; units; peers |
| `Boards` | `board.dfy` | the board, conflict test, completion test, loading, invariants |
| `Strike` | `strike.dfy` | `strike_options` and `strike_options_all` |
| `Hidden` | `hidden.dfy` | `select_only_remaining_option` and `select_only_remaining_option_all` |
| `Propagation` | `solver.dfy` | `simple_solver` |
| `Guessing` | `search.dfy` | `locate_minimal_options_cell`, `split_and_guess`, `solve_board` |

## Modelling choices

- **Boards are values.** A board is a `seq<Cell>` of length 81 in row-major
  order, so the deep copy before each guess is just value semantics.
- **Rules return a flag.** Each rule returns the new board and the source's
  "some cell was finalised" flag. The contracts prove the flag means exactly
  that some cell open before is final afterwards (`Progress`).
- **Process exits become results.**
  - Propagation returns `Solved(board)` or `Stalled(board)`, where the source
    calls `sys.exit` through `clean_up` on success.
  - The search returns a `Verdict`: `Solution(board)`, `NoSolution` or
    `Crashed`. `Crashed` stands for the source indexing the board with `None`.
- **Termination** of propagation and search is proved on the number of open
  cells. Every pass that reports a placement finalises a cell that was open,
  and every guess finalises one.
- **Hidden-single quirks, modelled as the code behaves:**
  - *The purge skips a candidate.* The unit's cells are visited in order, and
    the final digits met so far are collected. From each open cell's list
    being iterated, the purge removes those digits only, not final digits that
    come later in the unit. The candidate that follows a removed one is then
    neither purged nor tallied, even when no final digit rules it out
    (`Hidden.ScanOptionsWalk`, `Hidden.ScanOptionsDropsLive`,
    `Hidden.PurgeRemoves`).
  - *The tally goes stale.* The tally is built once per unit, and each
    placement is followed by a full strike-out sweep. A later digit of the
    same tally can therefore finalise a cell that is already final again:
    - a cell the sweep made final;
    - a cell the same loop has just placed by elimination, when that cell
      was the sole holder of two digits. The conflict test (sudoku.py:386-396)
      compares only final values with the proposed digit, so the cell's own,
      different value does not stop the second placement.
    Such a placement still passes the conflict test, so consistency is kept
    (`Boards.FinaliseConsistent`, `Hidden.HiddenDigits`).
  - *Tally order.* The tally is a dict keyed by digits, which the code visits
    in the interpreter's hash order. The model fixes one order, ascending
    digits (see Left out).
- **Two searches.** The code's search has two defects (see Findings), and
  the model keeps both versions:
  - `Guessing.SearchAsWritten` and `Guessing.BranchAsWritten` follow the code.
    The completion test runs only after a pass that placed a cell, so a board
    that is already complete crashes the search. After a copy fails, the loop
    guesses the next candidate at the cell that copy chose.
  - `Guessing.Search` and `Guessing.Branch` are corrected. Completion is
    tested before a branch cell is chosen, and every candidate is guessed at
    the cell first chosen, as the docstring of `split_and_guess` says.
  - The rest of the model uses the corrected pair.
- **Input validation.** The code validates nothing on loading. Here a
  well-formed grid is a precondition (`Boards.ValidGrid`). A consistent
  solution is promised only when the clues are distinct
  (`Boards.DistinctClues`).
- **Propagation schedule.** The model follows the code's exact schedule:
  - strike-out sweeps repeat while they place something;
  - then one hidden-single pass runs;
  - the loop starts over when that pass places something.

## Model

| member | source | states |
|---|---|---|
| Cells.NewCell | sudoku.py:487-505 | A missing entry gives an open cell whose candidates are exactly the digits 1..9, ascending. A supplied entry gives a final cell with that value, origin `Already supplied` and no candidates. |
| Cells.Without | sudoku.py:565 | `list.remove` of a candidate: the list is unchanged when the candidate is absent and one shorter when present; only that candidate goes, and nothing new appears. |
| Cells.WithoutAscending | sudoku.py:565 | Removing a candidate from an ascending list keeps it ascending and leaves no copy of the candidate behind. |
| Cells.RemoveOption | sudoku.py:551-568 | A final cell is left alone and reports false. On an open cell the flag is true exactly when the digit was a candidate. Afterwards the digit is absent, every other candidate is kept, and the length drops by one exactly when it was removed. A false flag means nothing changed. |
| Cells.CellOkCandidates | sudoku.py:491-497 | Every cell the engine produces has ascending candidates, at most nine of them. |
| Geometry.LookupBlock | sudoku.py:178-199 | For row and column in 0..8, the range-test chain returns block 3*(row/3)+col/3. It falls through (None) exactly when the row or column exceeds 8. |
| Geometry.PositionMapping | sudoku.py:170-172 | Position i has row i/9 and column i%9, both in 0..8, and i == 9*row+col. Its block is 3*(row/3)+col/3 and lies in 0..8. |
| Geometry.UnitFrom | sudoku.py:219-227 | Scanning positions n..80 collects exactly those whose unit of the given kind is k, in strictly increasing order. |
| Geometry.Unit | sudoku.py:201-227 | A row, column or block holds exactly the positions with that index, in row-major order, all valid. |
| Geometry.PeerList | sudoku.py:276-281 | The cells `strike_options` and `check_for_conflicts` visit are exactly the positions that share a row, column or block with the cell. |
| Boards.HasFinal | sudoku.py:386-396 | The scan of a list of positions finds `d` exactly when one of them holds `d` as final. |
| Boards.Conflict | sudoku.py:381-399 | The conflict test is true exactly when some peer of the position (the position itself included) holds the digit as final. |
| Boards.ConflictSameFinals | sudoku.py:381-399 | The conflict test depends only on which cells are final and their values. |
| Boards.ConflictKeeps | sudoku.py:381-399 | A clash found on a board is still found on any later board that keeps the final cells. |
| Boards.SolvedFrom | sudoku.py:402-413 | Scanning from position n succeeds exactly when every cell from n on is final. |
| Boards.CheckBoardSolved | sudoku.py:402-413 | The completion test is true exactly when every cell is final. |
| Boards.Load | sudoku.py:163-176 | One cell per entry, in order. A missing entry gives an open cell whose candidates are exactly the digits 1..9, ascending. A supplied entry gives a final cell with that value and origin `Already supplied`. |
| Boards.ExportLoad | sudoku.py:163-176 | Round trip: reading the final values of a freshly loaded board gives back the input grid. |
| Boards.LoadWF | sudoku.py:163-176 | A grid of 81 missing-or-digit entries loads to a well-formed board, which is consistent when no two clues clash. |
| Boards.FinaliseCell | sudoku.py:570-576 | Finalising any cell with a digit keeps the board well formed and only narrows it: no final cell reopens and no candidate appears. |
| Boards.FinaliseOpenCell | sudoku.py:570-576 | Finalising an open cell also keeps every other final cell and counts as progress. |
| Boards.FinaliseConsistent | sudoku.py:292-296 | Finalising a cell with a digit that passed the conflict test keeps every row, column and block free of repeated final digits. |
| Boards.NarrowCell | sudoku.py:346-350 | Replacing an open cell's candidates by some of them keeps the board well formed, consistent and settled, and keeps every final cell. |
| Boards.ShrinksCount | sudoku.py:46-89 | Termination measure: the number of open cells never grows along the solver's steps, and drops when a step finalises an open cell. |
| Strike.StrikeOne | sudoku.py:281-296 | Striking `v` from one cell changes no other cell and leaves `v` out of its candidates. A final cell, or an open cell without `v`, is left as it was. It finalises the cell only when the cell was open with `v` and one other candidate, taking that other digit with origin `Strike`. It reports exactly that finalisation. |
| Strike.StrikeOneKeepsOthers | sudoku.py:284-287 | A cell the strike leaves open loses `v` and nothing else: every other candidate stays. |
| Strike.StrikeOneChecked | sudoku.py:290-296 | A strike finalises a cell only with a digit that passed the conflict test. |
| Strike.StrikeOnePair | sudoku.py:284-296 | The converse: an open cell with candidates `v` and `p` is finalised with `p` (origin `Strike`) when `p` passes the conflict test, and is left open with just `p` when it does not. |
| Strike.StrikeOneConsistent | sudoku.py:292-296 | A single strike keeps a consistent board consistent. |
| Strike.StrikeList | sudoku.py:280-296 | Striking over a list of cells keeps every final cell, and the flag is true exactly when some open cell became final. |
| Strike.StrikeListCells | sudoku.py:280-296 | After a strike over a list: cells outside the list are untouched, open listed cells lack `v` and keep every other candidate, and each newly final cell had `v` and one other candidate, which it took with origin `Strike`. |
| Strike.StrikeListConsistent | sudoku.py:280-296 | A strike over a list keeps a consistent board consistent. |
| Strike.StrikeListNoop | sudoku.py:284-287 | Striking a digit that no listed open cell carries changes nothing and reports false. |
| Strike.StrikeListUntouched | sudoku.py:284-287 | An open cell without `v` is left exactly as it was by a strike of `v` over any list. |
| Strike.StrikeListPair | sudoku.py:280-296 | A listed open cell with candidates `v` and `p` ends the strike either final with `p` and origin `Strike`, or open with just `p` and a peer holding `p` as final. |
| Strike.StrikeAt | sudoku.py:259-303 | An open cell strikes nothing and reports false. Otherwise final cells are kept and the flag means some open cell became final. |
| Strike.StrikeAtCells | sudoku.py:259-303 | After a final cell strikes: no open peer still has its digit, every cell left open keeps all its other candidates, non-peers are untouched, and a peer became final only by being cut from two candidates to one, with origin `Strike`. |
| Strike.StrikeAtPair | sudoku.py:259-296 | The converse for one peer: a peer of a final cell with that cell's digit and one other candidate `p` ends up final with `p` (origin `Strike`), unless a peer of its own holds `p` as final, in which case it stays open with just `p`. |
| Strike.StrikeAtLost | sudoku.py:259-296 | Every cell the strike of one cell leaves open lost only candidates that a peer holds as final afterwards. |
| Strike.StrikeFrom | sudoku.py:247-257 | The sweep from position n on keeps final cells, and its flag means some open cell became final. |
| Strike.StrikeFromLost | sudoku.py:247-257 | Every cell the sweep leaves open lost only candidates that one of its peers holds as final when the sweep ends. |
| Strike.StrikeFromSettles | sudoku.py:247-257 | A sweep that reports no placement leaves no open peer of a visited final cell carrying that cell's digit. |
| Strike.StrikeFromNoop | sudoku.py:247-257 | On a settled board the sweep changes nothing and reports false. |
| Strike.StrikeAll | sudoku.py:241-257 | A full sweep keeps every final cell and tags every cell it finalises `Strike`. Its flag is true exactly when some open cell became final. A cell it leaves open lost only candidates that a peer holds as final. |
| Strike.StrikeAllSettles | sudoku.py:241-257 | A sweep that reports no placement leaves a settled board: no open cell has a candidate that a peer holds as final. |
| Strike.StrikeAllIdempotent | sudoku.py:241-257 | Idempotence: after a sweep that placed nothing, another sweep changes nothing and reports false. |
| Strike.StrikeAllNoop | sudoku.py:241-257 | On a settled board a sweep is the identity and reports false. |
| Strike.StrikeAllConsistent | sudoku.py:241-257 | A sweep keeps a consistent board consistent. |
| Hidden.ScanOptions | sudoku.py:344-356 | The scan of one cell's candidates adds none and keeps every candidate that is not among the final digits met so far in the unit. It keeps the list ascending, and tallies only kept candidates that are not among those digits. |
| Hidden.ScanOptionsWalk | sudoku.py:344-356 | The scan agrees with a walk over the original list: a candidate among the final digits met so far is removed and the next candidate is passed over, kept but not tallied; any other candidate is kept and tallied. |
| Hidden.SkipTalliedWithin | sudoku.py:344-356 | The walk tallies only candidates of the list that are not among the final digits met so far. |
| Hidden.SkipWalkStep | sudoku.py:346-356 | On an ascending list, a live candidate reached by the walk is tallied. The candidate right after a removed one is kept but never tallied, even when no final digit rules it out. |
| Hidden.ScanOptionsClean | sudoku.py:344-356 | When no candidate is among the final digits met so far, the scan keeps the list and tallies every candidate. |
| Hidden.ScanOptionsSkips | sudoku.py:346-350 | The skipped candidate: with 1 and 2 already met as final digits, scanning [1, 2, 3] removes 1, passes over 2 (neither removed nor tallied) and tallies only 3. |
| Hidden.ScanOptionsDropsLive | sudoku.py:346-356 | The skip loses a live candidate: with 1 already met as a final digit, scanning [1, 3, 4] removes 1 and passes over 3, though no final digit rules 3 out; only 4 is tallied. |
| Hidden.Purge | sudoku.py:337-356 | Building the tally keeps every final cell and changes no final value. Every tallied cell belongs to the unit and was open. |
| Hidden.PurgeCovers | sudoku.py:337-356 | Every open cell of the unit gets an entry in the tally. |
| Hidden.PurgeTallied | sudoku.py:344-356 | A cell is tallied only under candidates it had on the board, and never under a final digit met before it in the unit. |
| Hidden.PurgeRemoves | sudoku.py:340-350 | A candidate the purge removes from a cell is among the final digits it started with or is final at one of the visited positions; no other candidate is lost. |
| Hidden.OpenEntries | sudoku.py:337-356 | The reference tally: one entry per open cell of the unit, in unit order, tallied under exactly its candidates. |
| Hidden.PurgeSettled | sudoku.py:337-356 | On a settled board the purge removes nothing, and the tally it builds is exactly the reference tally: each open cell under all its candidates. |
| Hidden.PurgeUnitSettled | sudoku.py:337-356 | The same for a whole row, column or block, visited from an empty list of final digits. |
| Hidden.Holders | sudoku.py:351-360 | A digit's holder list contains exactly the tallied cells that carry it. |
| Hidden.HoldersNone | sudoku.py:351-360 | A digit that no entry of the tally carries has no holders. |
| Hidden.HoldersOpenOne | sudoku.py:351-360 | In the reference tally, a digit carried by exactly one open cell of the positions has that cell as its only holder. |
| Hidden.TallySole | sudoku.py:351-369 | The converse on the reference tally: a digit's only holder is an open cell of the positions that carries it, and no other open cell there carries it. |
| Hidden.Place | sudoku.py:362-377 | Placing by elimination gives the cell the digit with origin `Elimination`. It keeps every other final cell, and any other cell the following sweep finalises is tagged `Strike`. Every other cell left open lost only candidates that a peer holds as final afterwards. |
| Hidden.PlaceConsistent | sudoku.py:365-377 | A placement that passed the conflict test, and the sweep after it, keep a consistent board consistent. |
| Hidden.HiddenDigits | sudoku.py:359-377 | The tally loop from digit d on keeps final cells outside the tally and keeps consistency. A reported placement made some tallied cell final, and no report means no change. A cell it finalises with origin `Elimination` is the sole holder of its digit in the tally, and that digit is at least d. |
| Hidden.HiddenDigitsIff | sudoku.py:359-369 | The loop from digit d on reports a placement exactly when some digit from d to 9 has a single holder in the tally and passes the conflict test there. |
| Hidden.HiddenDigitsPlaces | sudoku.py:359-369 | The converse of the placement ensures: a digit from d on with a single holder that passes the conflict test makes the loop report a placement. |
| Hidden.HiddenPlace | sudoku.py:360-377 | Once a digit with a placeable sole holder is reached, the loop reports a placement and finalises a tallied cell. Every `Elimination` cell it makes is its digit's sole holder. |
| Hidden.TallyExample | sudoku.py:324-356 | On the tally [5, 7], [5, 7], [5, 7, 8], digits 5 and 7 are held by all three cells and 8 only by the third. |
| Hidden.TallySoleHolder | sudoku.py:359-369 | On that tally 8 is the only digit with a sole holder, and its holder is the third cell. With HiddenDigits, the only cell the pass can place by elimination is the third, and only with 8. |
| Hidden.HiddenUnit | sudoku.py:324-379 | One unit's pass keeps every final cell and keeps consistency. Its flag is true exactly when some open cell became final. Only cells of that unit are placed by elimination. |
| Hidden.HiddenUnitPlaces | sudoku.py:324-379 | The converse for one unit: when the unit's tally gives some digit a single holder that passes the conflict test, the unit pass reports a placement. |
| Hidden.HiddenUnitSole | sudoku.py:324-379 | On a settled board, an open cell of the unit that is the only open cell of the unit carrying digit `e` makes the unit pass report a placement. No conflict test can stop it there: on a settled board no peer holds a candidate as final. |
| Hidden.HiddenUnitOnly | sudoku.py:324-379 | The only-if half: on a settled board, a cell the unit pass places by elimination was open, belongs to the unit, carried the digit it received, and was the only open cell of the unit carrying it. |
| Hidden.HiddenUnitSettled | sudoku.py:324-379 | On a settled board, a unit pass that reports nothing changes nothing. |
| Hidden.HiddenFrom | sudoku.py:311-320 | The passes over units u..26 keep final cells and consistency. The flag means some open cell became final. |
| Hidden.HiddenFromSole | sudoku.py:311-320 | On a settled board, a digit carried by only one open cell of unit w makes the passes from any unit up to w report a placement. |
| Hidden.HiddenFromSettled | sudoku.py:311-320 | On a settled board, passes that report nothing change nothing. |
| Hidden.HiddenAll | sudoku.py:305-322 | The pass over all 27 units keeps final cells and consistency. Its flag is true exactly when some open cell became final. |
| Hidden.HiddenAllSole | sudoku.py:305-322 | On a settled board, a digit that only one open cell of some row, column or block can take makes the full pass report a placement. |
| Hidden.HiddenAllSettled | sudoku.py:305-322 | On a settled board, a full pass that reports nothing returns the board unchanged. |
| Propagation.Propagate | sudoku.py:46-89 | Propagation terminates and keeps every final cell and consistency. `Solved` means every cell is final. `Stalled` means a fixpoint: the board is settled, and one more strike-out sweep and one more hidden-single pass change nothing and report nothing. |
| Propagation.PropagateComplete | sudoku.py:56-85 | A board that is already complete is reported as stalled: no pass places anything, so the completion test never runs. |
| Propagation.PropagateIdempotent | sudoku.py:46-89 | Propagating a propagated board stalls at once without change. |
| Guessing.LocateFrom | sudoku.py:127-140 | The scan with sentinel 10 and strict `<` returns None exactly when no open cell has fewer than 10 candidates. Otherwise it returns an open cell with the fewest candidates, before which no open cell has as few. |
| Guessing.LocateMin | sudoku.py:120-140 | Returns None exactly when every cell is final. Otherwise it returns the first open cell, in row-major order, with the fewest candidates. |
| Guessing.GuessConsistent | sudoku.py:99-105 | On a settled board, a candidate of an open cell clashes with no peer, so a guess needs no conflict test. |
| Guessing.GuessAt | sudoku.py:99-105 | A guess finalises the chosen cell with the digit and origin `Guess`, and leaves every other cell as on the parent. It lowers the number of open cells. When the digit is one of the cell's candidates, it keeps a settled consistent board consistent. |
| Guessing.Attempt | sudoku.py:99-113 | One round of the corrected loop: a copy with the candidate guessed at the chosen cell, then searched. It never crashes. A solution is complete, keeps the parent's final cells, has the guessed digit at the guessed cell, and is consistent when the parent was settled and consistent. |
| Guessing.Branch | sudoku.py:91-118 | The corrected loop: as the docstring at line 94 says, every candidate is guessed at the cell first chosen, in list order. A solution is complete, keeps the board's final cells, and is the result of one of the candidates' copies. It is consistent when the board was. The branch fails exactly when every candidate's copy fails, and never crashes. |
| Guessing.BranchFirst | sudoku.py:97-118 | In the corrected loop, the solution comes from the first candidate whose copy succeeds: every earlier candidate's copy failed. |
| Guessing.Search | sudoku.py:28-36 | The corrected search (completion is tested before a branch cell is chosen, and branches use `Branch`) never crashes. A solution it returns is complete, keeps every final cell of the input, and is consistent when the input was. |
| Guessing.SearchBranches | sudoku.py:28-36 | After propagation, a complete board is the solution. Otherwise the board is stalled and settled, and the search branches on the first open cell with the fewest candidates: it fails exactly when every candidate's copy fails, and a solution is one candidate's copy's solution. |
| Guessing.BranchByDigit | sudoku.py:97-118 | The corrected loop over a cell's whole candidate list, digit by digit: it fails exactly when every candidate's copy fails, and a solution is one candidate's copy's solution. |
| Guessing.SearchAsWritten | sudoku.py:111-118 | The search as the code runs it on a copy: a solution is complete and keeps the input's final cells. A failure comes with the branch cell this search chose, an open cell of its input; the caller's loop takes it over. |
| Guessing.SearchBranchesAsWritten | sudoku.py:28-36 | After propagation, a solved board is returned and a board that stalled complete crashes the search. Otherwise the as-written loop runs on the first open cell with the fewest candidates and its whole candidate list, and that cell is reported. |
| Guessing.BranchAsWritten | sudoku.py:97-118 | The loop as written, rebinding included: a solution it returns is complete and keeps the board's final cells. |
| Guessing.RebindMovesGuess | sudoku.py:113-118 | The rebinding: when the first candidate's copy fails after choosing cell j, the loop continues as if started at j with the remaining candidates. Cell j differs from the first cell and is open on the parent, so the second candidate is guessed at j while the first cell stays open. |
| Guessing.FirstCopyAgrees | sudoku.py:99-113 | When propagation alone completes the first candidate's copy, the original and the corrected loop both return that copy. |
| Guessing.CompleteBoardCrashes | sudoku.py:113-118 | On a complete board the original search crashes, while the corrected one returns the board as the solution. |
| Guessing.LastGuessCrashes | sudoku.py:99-118 | When a guess fills the last open cell, the original loop crashes and the corrected one returns that copy. Search never reaches this state: on a stalled board a lone open cell with candidates would already have been placed by the hidden-single pass. |
| Guessing.Solve | sudoku.py:16-44 | The corrected driver never crashes. A solution is complete, keeps every supplied entry as final with origin `Already supplied`, and is consistent when the clues do not clash. |
| Guessing.SolveBranches | sudoku.py:16-44 | The driver searches after propagating the loaded grid: a complete board is the solution, and otherwise the result is decided by the candidates' copies of the first open cell with the fewest candidates. |
| Guessing.SolveAsWritten | sudoku.py:16-44 | The driver as written, crash and rebinding included: a solution is complete and keeps every supplied entry as final with origin `Already supplied`. |
| Guessing.SolveBranchesAsWritten | sudoku.py:16-44 | The driver as written after propagating the loaded grid: a solved board is returned, a board that stalled complete crashes it, and otherwise the as-written loop runs on the first open cell with the fewest candidates. |
| Guessing.FullGridCrashes | sudoku.py:28-36 | A grid with all 81 entries supplied crashes the original driver, while the corrected one returns the loaded board. |

## Left out

- CSV reading and writing (`csv_to_array`, the file part of `load_board`, `export_board_to_csv`): file I/O. The model takes the 81 entries as a `seq<Option<int>>`.
- Screen output (`print_board_to_screen`, `print_final_board_to_screen_neat`, `string_rep`, `__repr__`): rendering only.
- Timing, messages and `sys.exit` in `solve_board` and `clean_up`, and the command-line handling: process plumbing, replaced by returned results. The origin counts that `clean_up` prints are not modelled.
- The `debug` flag and its prints: logging only.
- `copy.deepcopy`: boards are immutable values.
- The string-keyed `get_index` and its `ValueError`: replaced by the `UnitKind` datatype, so no bad key can arise.
- The `board_loaded` check in `solve_board`: `Solve` always receives a grid.
- The `board_complete` field that `check_board_solved` sets: `clean_up` reads it to decide whether to stop the timer, write the CSV file and exit (sudoku.py:453-455). `simple_solver` calls `clean_up` only right after the completion test returned true, so the field is true there. The model's `Solved` result stands for that exit.
- Guessing.Solve: requires a grid of 81 entries, each missing or a digit 1..9. The code validates nothing, so other inputs are outside the model. A supplied 0, for one, gives a cell with value 0 and no candidate list; every test of `cell.final` treats it as not final, so the code fails with a `TypeError` when it iterates or measures that missing list (sudoku.py:346, sudoku.py:135).
- Hidden.TallySoleHolder: the example of open cells [5, 7], [5, 7], [5, 7, 8] is proved on the unit's tally, together with the HiddenDigits ensures: no cell but the third, and no digit but 8, can be placed by elimination. That the pass does place 8 in the third cell is stated in general, for settled boards, by Hidden.HiddenUnitSole, not for this example. That the first two cells keep [5, 7] is not stated. Strike-out and each single placement are proved to remove only digits a peer holds as final (Strike.StrikeAll, Hidden.Place). A whole hidden-single pass can break that: a cell that solely holds two digits is placed with the first, which is struck from its peers, and is then re-placed with the second, so no peer holds the struck digit any more.
- Hidden.HiddenDigits: visits the digits in ascending order, an order chosen for the model. The code visits its tally dict in the interpreter's hash order, which for a small dict need not be ascending (8 can come before 1). Results that depend on another visiting order are not modelled.
- Guessing.SolveAsWritten: promises no consistency. After the rebinding, a candidate of one cell is finalised at another cell with no conflict test, so a clash can enter the board. Guessing.BranchAsWritten makes the same weaker promise for the same reason.

## Findings

| source | as written | input that shows it | evidently intended | confidence | as-written member | corrected member |
|---|---|---|---|---|---|---|
| sudoku.py:28-36 | The completion test runs only after a pass that placed a cell. A board that is already complete therefore leaves `simple_solver` returning False. `locate_minimal_options_cell` then returns None (line 33), and `split_and_guess` (line 36) indexes `cell_array` with None at line 98. | A grid with all 81 entries supplied | A complete board is reported as solved | high, not executed | Guessing.FullGridCrashes | Guessing.Search |
| sudoku.py:113-118 | Line 117 assigns the copy's branch cell to the loop variable that holds the cell being guessed. When a copy fails, every later candidate of the first cell is guessed at the cell that copy chose, with no conflict test, and the first cell is never tried with it. | A stalled board whose branch cell has two or more candidates, where the first candidate's copy stalls again and all of its own branches fail | Every candidate is guessed at the cell first chosen, one copy per candidate, as the docstring at line 94 describes | high, not executed | Guessing.RebindMovesGuess | Guessing.Branch |

=== FILE: board.dfy ===
/** The board: 81 cells in row-major order, with the predicates the
    solver's rules keep true and the conflict test that guards every
    finalisation made by propagation. */
module Boards {
  import opened Cells
  import opened Geometry

  type Board = seq<Cell>

  /** The board has 81 cells, each in the shape CellOk describes. */
  predicate WF(b: Board) {
    |b| == 81 && forall j :: 0 <= j < 81 ==> CellOk(b[j])
  }

  /** No digit is final twice in any row, column or block. */
  predicate Consistent(b: Board)
    requires |b| == 81
  {
    forall i, j {:trigger Peers(i, j), b[i], b[j]} :: 0 <= i < 81 && 0 <= j < 81 && i != j && Peers(i, j) && b[i].Final? && b[j].Final? ==> b[i].v != b[j].v
  }

  /** No open cell still carries a digit that one of its peers holds as
      final: the state a full elimination sweep leaves behind. */
  predicate Settled(b: Board)
    requires |b| == 81
  {
    forall i, j {:trigger Peers(i, j), b[i], b[j]} :: 0 <= i < 81 && 0 <= j < 81 && Peers(i, j) && b[i].Final? && b[j].Open? ==> b[i].v !in b[j].opts
  }

  /** Every cell is final. */
  predicate AllFinal(b: Board) {
    forall j :: 0 <= j < |b| ==> b[j].Final?
  }

  /** Whether some cell among the positions `js` holds `d` as final. */
  function HasFinal(b: Board, js: seq<nat>, d: int): (r: bool)
    requires forall a :: 0 <= a < |js| ==> js[a] < |b|
    ensures r <==> exists a :: 0 <= a < |js| && b[js[a]].Final? && b[js[a]].v == d
  {
    if js == [] then false
    else if b[js[0]].Final? && b[js[0]].v == d then true
    else HasFinal(b, js[1..], d)
  }

  /** Whether placing `d` at position j would clash: some cell in j's row,
      column or block (j itself included) already holds `d` as final. */
  function Conflict(b: Board, j: int, d: int): (r: bool)
    requires |b| == 81 && IsPos(j)
    ensures r <==> exists i :: IsPos(i) && Peers(i, j) && b[i].Final? && b[i].v == d
  {
    var ps := PeerList(j);
    var r := HasFinal(b, ps, d);
    assert r ==> exists i :: IsPos(i) && Peers(i, j) && b[i].Final? && b[i].v == d by {
      if r {
        var a :| 0 <= a < |ps| && IsPos(ps[a]) && b[ps[a]].Final? && b[ps[a]].v == d;
        var i := ps[a];
        assert i in ps;
        assert IsPos(i) && Peers(i, j) && b[i].Final? && b[i].v == d;
      }
    }
    assert (exists i :: IsPos(i) && Peers(i, j) && b[i].Final? && b[i].v == d) ==> r by {
      if exists i :: IsPos(i) && Peers(i, j) && b[i].Final? && b[i].v == d {
        var i :| IsPos(i) && Peers(i, j) && b[i].Final? && b[i].v == d;
        assert i in ps;
        var a :| 0 <= a < |ps| && ps[a] == i;
      }
    }
    r
  }

  /** The completion test: scans positions n.. and fails at the first
      cell that is not final. */
  function SolvedFrom(b: Board, n: nat): (r: bool)
    requires n <= |b|
    ensures r <==> forall j :: n <= j < |b| ==> b[j].Final?
    decreases |b| - n
  {
    if n == |b| then true
    else if !b[n].Final? then false
    else SolvedFrom(b, n + 1)
  }

  function CheckBoardSolved(b: Board): (r: bool)
    ensures r <==> AllFinal(b)
  {
    SolvedFrom(b, 0)
  }

  function OpenSet(b: Board): set<int> {
    set j | 0 <= j < |b| && b[j].Open?
  }

  /** The termination measure of propagation and search. */
  function CountOpen(b: Board): nat {
    |OpenSet(b)|
  }

  /** b' is reachable from b by the solver's steps: final cells stay
      final, and open cells keep only candidates they had. */
  predicate Shrinks(b: Board, b': Board) {
    && |b'| == |b|
    && (forall j :: 0 <= j < |b| && b[j].Final? ==> b'[j].Final?)
    && (forall j :: 0 <= j < |b| && b'[j].Open? ==> b[j].Open? && forall x :: x in b'[j].opts ==> x in b[j].opts)
  }

  /** Shrinks, and every final cell keeps its value and origin too. */
  predicate Keeps(b: Board, b': Board) {
    Shrinks(b, b') && forall j :: 0 <= j < |b| && b[j].Final? ==> b'[j] == b[j]
  }

  /** Some cell open in b is final in b'. */
  predicate Progress(b: Board, b': Board)
    requires |b'| == |b|
  {
    exists j :: 0 <= j < |b| && b[j].Open? && b'[j].Final?
  }

  lemma ShrinksTrans(b1: Board, b2: Board, b3: Board)
    requires Shrinks(b1, b2) && Shrinks(b2, b3)
    ensures Shrinks(b1, b3)
  {
  }

  lemma KeepsTrans(b1: Board, b2: Board, b3: Board)
    requires Keeps(b1, b2) && Keeps(b2, b3)
    ensures Keeps(b1, b3)
  {
  }

  /** Shrinking never opens a cell, and finalising an open one lowers the
      number of open cells. */
  lemma {:induction false} ShrinksCount(b: Board, b': Board)
    requires Shrinks(b, b')
    ensures CountOpen(b') <= CountOpen(b)
    ensures Progress(b, b') ==> CountOpen(b') < CountOpen(b)
  {
    assert OpenSet(b') <= OpenSet(b);
    if Progress(b, b') {
      var j :| 0 <= j < |b| && b[j].Open? && b'[j].Final?;
      assert j in OpenSet(b) - OpenSet(b');
      assert OpenSet(b') < OpenSet(b);
      SubsetCard(OpenSet(b'), OpenSet(b));
    } else {
      SubsetCard(OpenSet(b'), OpenSet(b));
    }
  }

  lemma SubsetCard(a: set<int>, s: set<int>)
    requires a <= s
    ensures |a| <= |s|
    ensures a < s ==> |a| < |s|
  {
    assert s == a + (s - a);
    assert |s| == |a| + |s - a|;
  }

  /** A board built from 81 optional entries: missing entries open with
      every candidate, supplied ones final as given. */
  function Load(g: seq<Option<int>>): (b: Board)
    ensures |b| == |g|
    ensures forall i :: 0 <= i < |g| && g[i].None? ==>
              b[i].Open? && Ascending(b[i].opts) && forall d :: d in b[i].opts <==> IsDigit(d)
    ensures forall i :: 0 <= i < |g| && g[i].Some? ==> b[i] == Final(g[i].value, AlreadySupplied)
  {
    seq(|g|, i requires 0 <= i < |g| => NewCell(g[i]))
  }

  /** The final value of every cell, or None where the cell is open. */
  function Export(b: Board): (g: seq<Option<int>>)
    ensures |g| == |b|
  {
    seq(|b|, i requires 0 <= i < |b| => if b[i].Final? then Some(b[i].v) else None)
  }

  /** Exporting a freshly loaded board gives back its input. */
  lemma {:induction false} ExportLoad(g: seq<Option<int>>)
    ensures Export(Load(g)) == g
  {
    var b := Load(g);
    forall i | 0 <= i < |g|
      ensures Export(b)[i] == g[i]
    {
      assert b[i] == NewCell(g[i]);
    }
  }

  /** An input grid: 81 entries, each missing or a digit. */
  predicate ValidGrid(g: seq<Option<int>>) {
    |g| == 81 && forall i :: 0 <= i < 81 && g[i].Some? ==> IsDigit(g[i].value)
  }

  /** No two supplied entries in one row, column or block are equal. */
  predicate DistinctClues(g: seq<Option<int>>)
    requires |g| == 81
  {
    forall i, j :: 0 <= i < 81 && 0 <= j < 81 && i != j && Peers(i, j) && g[i].Some? && g[j].Some? ==> g[i].value != g[j].value
  }

  /** Loading a valid grid gives a well-formed board, consistent when
      the clues are. */
  lemma LoadWF(g: seq<Option<int>>)
    requires ValidGrid(g)
    ensures WF(Load(g))
    ensures DistinctClues(g) ==> Consistent(Load(g))
  {
    var b := Load(g);
    forall j | 0 <= j < 81
      ensures CellOk(b[j])
    {
      assert b[j] == NewCell(g[j]);
    }
  }

  /** Finalising a cell with a digit that passed the conflict test keeps
      the board consistent, whatever the cell held before. */
  lemma FinaliseConsistent(b: Board, j: int, d: int, o: Origin)
    requires |b| == 81 && IsPos(j) && Consistent(b) && !Conflict(b, j, d)
    ensures Consistent(b[j := Final(d, o)])
  {
  }

  /** A clash stays a clash on a board that keeps every final cell. */
  lemma ConflictKeeps(b: Board, b': Board, j: int, d: int)
    requires |b| == 81 && Keeps(b, b') && IsPos(j) && Conflict(b, j, d)
    ensures Conflict(b', j, d)
  {
    var i :| IsPos(i) && Peers(i, j) && b[i].Final? && b[i].v == d;
    assert b'[i] == b[i];
  }

  /** Cell k, open on both boards, lost on the way from b to b' only
      candidates that some peer of k holds as final on b'. */
  predicate CellLostToFinals(b: Board, b': Board, k: int)
    requires |b| == 81 && |b'| == 81 && IsPos(k)
  {
    b[k].Open? && b'[k].Open? ==> forall x :: x in b[k].opts && x !in b'[k].opts ==> Conflict(b', k, x)
  }

  /** Every cell open on both boards lost only candidates a peer holds as
      final: the only removal the elimination rule makes. */
  predicate LostOnlyToFinals(b: Board, b': Board)
    requires |b| == 81 && |b'| == 81
  {
    forall k :: 0 <= k < 81 ==> CellLostToFinals(b, b', k)
  }

  lemma LostOnlyToFinalsTrans(b1: Board, b2: Board, b3: Board)
    requires |b1| == 81 && Keeps(b1, b2) && Keeps(b2, b3)
    requires LostOnlyToFinals(b1, b2) && LostOnlyToFinals(b2, b3)
    ensures LostOnlyToFinals(b1, b3)
  {
    forall k | 0 <= k < 81
      ensures CellLostToFinals(b1, b3, k)
    {
      if b1[k].Open? && b3[k].Open? {
        assert b2[k].Open?;
        assert CellLostToFinals(b1, b2, k) && CellLostToFinals(b2, b3, k);
        forall x | x in b1[k].opts && x !in b3[k].opts
          ensures Conflict(b3, k, x)
        {
          if x !in b2[k].opts {
            ConflictKeeps(b2, b3, k, x);
          }
        }
      }
    }
  }

  /** Replacing an open cell's candidates by some of them. */
  lemma {:induction false} NarrowCell(b: Board, j: int, c: Cell)
    requires WF(b) && IsPos(j) && b[j].Open?
    requires c.Open? && Ascending(c.opts) && forall x :: x in c.opts ==> x in b[j].opts
    ensures WF(b[j := c]) && Keeps(b, b[j := c])
    ensures Consistent(b) ==> Consistent(b[j := c])
    ensures Settled(b) ==> Settled(b[j := c])
  {
    var b' := b[j := c];
    assert CellOk(b[j]);
    forall k | 0 <= k < 81
      ensures CellOk(b'[k])
    {
      if k != j {
        assert b'[k] == b[k];
      }
    }
  }

  /** Finalising an open cell with a digit. */
  lemma {:induction false} FinaliseOpenCell(b: Board, j: int, d: int, o: Origin)
    requires WF(b) && IsPos(j) && b[j].Open? && IsDigit(d)
    ensures WF(b[j := Final(d, o)]) && Keeps(b, b[j := Final(d, o)])
    ensures Progress(b, b[j := Final(d, o)])
  {
    var b' := b[j := Final(d, o)];
    forall k | 0 <= k < 81
      ensures CellOk(b'[k])
    {
      if k != j {
        assert b'[k] == b[k];
      }
    }
    assert b[j].Open? && b'[j].Final?;
  }

  /** The two boards agree on which cells are final and on their values. */
  predicate SameFinals(b: Board, b': Board) {
    |b'| == |b| && forall k :: 0 <= k < |b| ==> b[k].Final? == b'[k].Final? && (b[k].Final? ==> b[k].v == b'[k].v)
  }

  /** The conflict test only looks at final cells. */
  lemma {:induction false} ConflictSameFinals(b: Board, b': Board, j: int, d: int)
    requires |b| == 81 && SameFinals(b, b') && IsPos(j)
    ensures Conflict(b, j, d) == Conflict(b', j, d)
  {
    if Conflict(b, j, d) {
      var i :| IsPos(i) && Peers(i, j) && b[i].Final? && b[i].v == d;
      assert b'[i].Final? && b'[i].v == d;
    }
    if Conflict(b', j, d) {
      var i :| IsPos(i) && Peers(i, j) && b'[i].Final? && b'[i].v == d;
      assert b[i].Final? && b[i].v == d;
    }
  }

  lemma ReplaceOpenSameFinals(b: Board, j: int, c: Cell)
    requires 0 <= j < |b| && b[j].Open? && c.Open?
    ensures SameFinals(b, b[j := c])
  {
  }

  /** Finalising any cell with a digit keeps the board's shape. */
  lemma {:induction false} FinaliseCell(b: Board, j: int, d: int, o: Origin)
    requires WF(b) && IsPos(j) && IsDigit(d)
    ensures WF(b[j := Final(d, o)]) && Shrinks(b, b[j := Final(d, o)])
  {
    var b' := b[j := Final(d, o)];
    forall k | 0 <= k < 81
      ensures CellOk(b'[k])
    {
      if k != j {
        assert b'[k] == b[k];
      }
    }
  }

  /** A final cell other than the one replaced survives a replacement
      followed by a step that keeps final cells. */
  lemma KeepsOther(b: Board, c: int, x: Cell, b2: Board, k: int)
    requires 0 <= c < |b| && 0 <= k < |b| && k != c && b[k].Final?
    requires Keeps(b[c := x], b2)
    ensures b2[k] == b[k]
  {
    assert b[c := x][k] == b[k];
  }
}

=== FILE: cells.dfy ===
/** Per-position state of the solver: a cell either holds a final digit
    (with a tag saying how it was obtained) or an ascending list of the
    digits still possible for it. */
module Cells {

  datatype Option<+T> = None | Some(value: T)

  /** How a cell acquired its final value. */
  datatype Origin = AlreadySupplied | Strike | Elimination | Guess

  datatype Cell = Final(v: int, origin: Origin) | Open(opts: seq<int>)

  predicate IsDigit(d: int) {
    1 <= d <= 9
  }

  /** Strictly increasing, hence also free of duplicates. */
  predicate Ascending(s: seq<int>) {
    forall i, j :: 0 <= i < j < |s| ==> s[i] < s[j]
  }

  /** The shape every cell keeps for the whole run: final digits are 1..9,
      candidate lists are ascending lists of digits. */
  predicate CellOk(c: Cell) {
    match c
    case Final(v, _) => IsDigit(v)
    case Open(o) => Ascending(o) && forall x :: x in o ==> IsDigit(x)
  }

  /** The candidates of a cell; a final cell has none. */
  function Candidates(c: Cell): seq<int> {
    if c.Open? then c.opts else []
  }

  /** A new cell: a missing entry starts with every digit as a candidate,
      a supplied entry is final straight away. */
  function NewCell(entry: Option<int>): (c: Cell)
    ensures entry.None? ==> c.Open? && Ascending(c.opts) && |c.opts| == 9
    ensures entry.None? ==> forall d :: d in c.opts <==> IsDigit(d)
    ensures entry.Some? ==> c.Final? && c.v == entry.value && Candidates(c) == []
    ensures entry.Some? ==> c.origin == AlreadySupplied
  {
    match entry
    case None => Open([1, 2, 3, 4, 5, 6, 7, 8, 9])
    case Some(v) => Final(v, AlreadySupplied)
  }

  /** A list with the first occurrence of `d` taken out. */
  function Without(s: seq<int>, d: int): (r: seq<int>)
    ensures d !in s ==> r == s
    ensures d in s ==> |r| == |s| - 1
    ensures forall x :: x in r ==> x in s
    ensures forall x :: x in s && x != d ==> x in r
  {
    if s == [] then []
    else if s[0] == d then s[1..]
    else [s[0]] + Without(s[1..], d)
  }

  /** Removing from an ascending list keeps it ascending and, as the list
      has no duplicates, leaves no copy of the removed digit behind. */
  lemma {:induction false} WithoutAscending(s: seq<int>, d: int)
    requires Ascending(s)
    ensures Ascending(Without(s, d)) && d !in Without(s, d)
  {
    if s != [] {
      assert Ascending(s[1..]);
      if s[0] == d {
        assert forall k :: 1 <= k < |s| ==> s[k] > d;
      } else {
        WithoutAscending(s[1..], d);
        var t := Without(s[1..], d);
        assert forall x :: x in s[1..] ==> s[0] < x;
        AscendingCons(s[0], t);
      }
    }
  }

  lemma AscendingCons(x: int, t: seq<int>)
    requires Ascending(t) && forall y :: y in t ==> x < y
    ensures Ascending([x] + t)
  {
    var r := [x] + t;
    forall i, j | 0 <= i < j < |r|
      ensures r[i] < r[j]
    {
      assert r[j] == t[j - 1];
      if i > 0 {
        assert r[i] == t[i - 1];
      } else {
        assert t[j - 1] in t;
      }
    }
  }

  /** Removes candidate `d` from a cell. The flag says whether a candidate
      was removed; a final cell, or an open cell without candidates, is
      left alone. */
  function RemoveOption(c: Cell, d: int): (r: (Cell, bool))
    ensures c.Final? ==> r == (c, false)
    ensures c.Open? ==> r.0.Open? && (r.1 <==> d in c.opts)
    ensures c.Open? ==> forall x :: x != d ==> (x in r.0.opts <==> x in c.opts)
    ensures c.Open? ==> |r.0.opts| == if d in c.opts then |c.opts| - 1 else |c.opts|
    ensures CellOk(c) ==> CellOk(r.0) && (c.Open? ==> d !in r.0.opts)
    ensures !r.1 ==> r.0 == c
  {
    match c
    case Final(_, _) => (c, false)
    case Open(o) =>
      if |o| == 0 then (c, false)
      else if d in o then
        (if Ascending(o) then WithoutAscending(o, d); (Open(Without(o, d)), true)
         else (Open(Without(o, d)), true))
      else (c, false)
  }

  lemma {:induction false} AscendingDigitsAtMostNine(s: seq<int>)
    requires Ascending(s)
    requires forall x :: x in s ==> IsDigit(x)
    ensures |s| <= 9
  {
    if |s| > 0 {
      AscendingLowerBound(s, |s| - 1);
      assert s[0] in s && s[|s| - 1] in s;
    }
  }

  lemma {:induction false} AscendingLowerBound(s: seq<int>, k: nat)
    requires Ascending(s)
    requires k < |s|
    ensures s[k] >= s[0] + k
  {
    if k > 0 {
      AscendingLowerBound(s, k - 1);
    }
  }

  /** Candidate lists only shrink, so every state a cell reaches keeps its
      candidates ascending and within 1..9. */
  lemma CellOkCandidates(c: Cell)
    requires CellOk(c)
    ensures Ascending(Candidates(c)) && |Candidates(c)| <= 9
  {
    if c.Open? {
      AscendingDigitsAtMostNine(c.opts);
    }
  }
}

=== FILE: geometry.dfy ===
/** Positions on the 9x9 grid: the row, column and block of a position
    and the three kinds of unit (peer group) derived from them. */
module Geometry {
  import opened Cells

  /** The block of a (row, column) pair, by the original chain of range
      tests; a row or column beyond 8 falls through every test. */
  function LookupBlock(row: int, col: int): (r: Option<int>)
    ensures 0 <= row <= 8 && 0 <= col <= 8 ==> r == Some(3 * (row / 3) + col / 3)
    ensures r.None? <==> row > 8 || col > 8
  {
    if row <= 2 && col <= 2 then Some(0)
    else if row <= 2 && col <= 5 then Some(1)
    else if row <= 2 && col <= 8 then Some(2)
    else if row <= 5 && col <= 2 then Some(3)
    else if row <= 5 && col <= 5 then Some(4)
    else if row <= 5 && col <= 8 then Some(5)
    else if row <= 8 && col <= 2 then Some(6)
    else if row <= 8 && col <= 5 then Some(7)
    else if row <= 8 && col <= 8 then Some(8)
    else None
  }

  predicate IsPos(i: int) {
    0 <= i < 81
  }

  function RowOf(i: int): int
    requires IsPos(i)
  {
    i / 9
  }

  function ColOf(i: int): int
    requires IsPos(i)
  {
    i % 9
  }

  function BlockOf(i: int): int
    requires IsPos(i)
  {
    LookupBlock(RowOf(i), ColOf(i)).value
  }

  /** Position i lies at row i/9, column i%9 and block 3*(row/3)+col/3,
      and these three coordinates determine i. */
  lemma PositionMapping(i: int)
    requires IsPos(i)
    ensures 0 <= RowOf(i) <= 8 && 0 <= ColOf(i) <= 8 && i == 9 * RowOf(i) + ColOf(i)
    ensures BlockOf(i) == 3 * (RowOf(i) / 3) + ColOf(i) / 3 && 0 <= BlockOf(i) <= 8
  {
  }

  datatype UnitKind = Row | Col | Block

  /** The index of the unit of the given kind that holds position i. */
  function Key(kind: UnitKind, i: int): int
    requires IsPos(i)
  {
    match kind
    case Row => RowOf(i)
    case Col => ColOf(i)
    case Block => BlockOf(i)
  }

  /** Positions n..80 whose unit of the given kind is k, in row-major order. */
  function UnitFrom(kind: UnitKind, k: int, n: nat): (r: seq<nat>)
    requires n <= 81
    ensures forall x :: x in r <==> n <= x < 81 && Key(kind, x) == k
    ensures forall a, b :: 0 <= a < b < |r| ==> r[a] < r[b]
    ensures forall a :: 0 <= a < |r| ==> n <= r[a] < 81
    decreases 81 - n
  {
    if n == 81 then []
    else if Key(kind, n) == k then [n] + UnitFrom(kind, k, n + 1)
    else UnitFrom(kind, k, n + 1)
  }

  /** The cells of row, column or block k: every position whose unit of
      that kind is k, scanned in row-major order. */
  function Unit(kind: UnitKind, k: int): (r: seq<nat>)
    ensures forall x :: x in r <==> IsPos(x) && Key(kind, x) == k
    ensures forall a, b :: 0 <= a < b < |r| ==> r[a] < r[b]
    ensures forall a :: 0 <= a < |r| ==> IsPos(r[a])
  {
    UnitFrom(kind, k, 0)
  }

  /** Two positions are peers when they share a row, a column or a block
      (every position is its own peer). */
  predicate Peers(i: int, j: int)
    requires IsPos(i) && IsPos(j)
  {
    RowOf(i) == RowOf(j) || ColOf(i) == ColOf(j) || BlockOf(i) == BlockOf(j)
  }

  lemma SameUnitPeers(kind: UnitKind, i: int, j: int)
    requires IsPos(i) && IsPos(j) && Key(kind, i) == Key(kind, j)
    ensures Peers(i, j)
  {
  }

  /** The row, then the column, then the block of position i; a position
      met in two of them appears twice. */
  function PeerList(i: int): (r: seq<nat>)
    requires IsPos(i)
    ensures forall j :: j in r <==> IsPos(j) && Peers(i, j)
    ensures forall a :: 0 <= a < |r| ==> IsPos(r[a])
  {
    Unit(Row, RowOf(i)) + Unit(Col, ColOf(i)) + Unit(Block, BlockOf(i))
  }

  /** The 27 units in the order the hidden-single sweep visits them:
      rows 0..8, then columns 0..8, then blocks 0..8. */
  function UnitNumber(u: nat): (r: (UnitKind, int))
    requires u < 27
  {
    (if u < 9 then Row else if u < 18 then Col else Block, u % 9)
  }
}

=== FILE: hidden.dfy ===
/** The hidden-single ("sole remaining option") rule: within one row,
    column or block, a digit that only one open cell can still take is
    given to that cell, after the conflict test, and each such
    finalisation is followed by a full elimination sweep. */
module Hidden {
  import opened Cells
  import opened Geometry
  import opened Boards
  import opened Strike

  /** The candidate scan of one open cell while the unit's tally is built.
      A candidate already final in the unit is removed from the list being
      scanned; as the scan position still advances, the candidate after a
      removed one is passed over, neither removed nor tallied. Returns the
      remaining candidates and the tallied ones. */
  function ScanOptions(opts: seq<int>, k: nat, fin: seq<int>): (r: (seq<int>, seq<int>))
    requires k <= |opts| + 1
    ensures forall x :: x in r.0 ==> x in opts
    ensures forall x :: x in opts && x !in fin ==> x in r.0
    ensures forall x :: x in r.1 ==> x in r.0 && x !in fin
    ensures Ascending(opts) ==> Ascending(r.0)
    decreases |opts| + 1 - k
  {
    if k >= |opts| then (opts, [])
    else if opts[k] in fin then
      var rest := opts[..k] + opts[k + 1..];
      RemoveAt(opts, k);
      ScanOptions(rest, k + 1, fin)
    else
      var (o, t) := ScanOptions(opts, k + 1, fin);
      (o, [opts[k]] + t)
  }

  lemma RemoveAt(s: seq<int>, k: nat)
    requires k < |s|
    ensures forall x :: x in s[..k] + s[k + 1..] ==> x in s
    ensures forall x :: x in s && x != s[k] ==> x in s[..k] + s[k + 1..]
    ensures Ascending(s) ==> Ascending(s[..k] + s[k + 1..])
  {
    var t := s[..k] + s[k + 1..];
    assert forall a :: 0 <= a < |t| ==> t[a] == if a < k then s[a] else s[a + 1];
    forall x | x in s && x != s[k]
      ensures x in t
    {
      var a :| 0 <= a < |s| && s[a] == x;
      if a < k {
        assert t[a] == x;
      } else {
        assert t[a - 1] == x;
      }
    }
  }

  /** The scan restated over the original list: a candidate in `fin` is
      removed and the candidate after it passed over, kept but not
      tallied; any other candidate is kept and tallied. */
  function SkipKept(o: seq<int>, fin: seq<int>): seq<int>
    decreases |o|
  {
    if o == [] then []
    else if o[0] in fin then (if |o| >= 2 then [o[1]] + SkipKept(o[2..], fin) else [])
    else [o[0]] + SkipKept(o[1..], fin)
  }

  function SkipTallied(o: seq<int>, fin: seq<int>): seq<int>
    decreases |o|
  {
    if o == [] then []
    else if o[0] in fin then (if |o| >= 2 then SkipTallied(o[2..], fin) else [])
    else [o[0]] + SkipTallied(o[1..], fin)
  }

  /** The scan from position k agrees with the walk over the rest of the
      list: the positions before k are kept, and the walk decides the
      remainder and the tally. */
  lemma {:induction false} ScanOptionsWalk(opts: seq<int>, k: nat, fin: seq<int>)
    requires k <= |opts|
    ensures ScanOptions(opts, k, fin) == (opts[..k] + SkipKept(opts[k..], fin), SkipTallied(opts[k..], fin))
    decreases |opts| - k
  {
    var o := opts[k..];
    if k == |opts| {
      assert o == [] && opts[..k] == opts;
      assert SkipKept(o, fin) == [] && SkipTallied(o, fin) == [];
      assert opts[..k] + [] == opts;
    } else if opts[k] in fin {
      var rest := opts[..k] + opts[k + 1..];
      if k + 1 == |opts| {
        assert o[0] == opts[k] && rest == opts[..k];
      } else {
        ScanOptionsWalk(rest, k + 1, fin);
        ScanRemoveStep(opts, k, fin);
      }
    } else {
      ScanOptionsWalk(opts, k + 1, fin);
      ScanKeepStep(opts, k, fin);
    }
  }

  /** One removal step of the walk: if the scan of the shortened list
      agrees with the walk from k + 1, the scan of `opts` agrees from k. */
  lemma ScanRemoveStep(opts: seq<int>, k: nat, fin: seq<int>)
    requires k + 1 < |opts| && opts[k] in fin
    requires var rest := opts[..k] + opts[k + 1..];
             ScanOptions(rest, k + 1, fin) == (rest[..k + 1] + SkipKept(rest[k + 1..], fin), SkipTallied(rest[k + 1..], fin))
    ensures ScanOptions(opts, k, fin) == (opts[..k] + SkipKept(opts[k..], fin), SkipTallied(opts[k..], fin))
  {
    var o := opts[k..];
    var rest := opts[..k] + opts[k + 1..];
    RemoveSlices(opts, k);
    assert o[0] == opts[k];
    assert SkipKept(o, fin) == [o[1]] + SkipKept(o[2..], fin);
    assert rest[..k + 1] + SkipKept(rest[k + 1..], fin) == opts[..k] + SkipKept(o, fin);
  }

  /** One keeping step of the walk. */
  lemma ScanKeepStep(opts: seq<int>, k: nat, fin: seq<int>)
    requires k < |opts| && opts[k] !in fin
    requires ScanOptions(opts, k + 1, fin) == (opts[..k + 1] + SkipKept(opts[k + 1..], fin), SkipTallied(opts[k + 1..], fin))
    ensures ScanOptions(opts, k, fin) == (opts[..k] + SkipKept(opts[k..], fin), SkipTallied(opts[k..], fin))
  {
    var o := opts[k..];
    var (o1, t1) := ScanOptions(opts, k + 1, fin);
    assert ScanOptions(opts, k, fin) == (o1, [opts[k]] + t1);
    assert o[0] == opts[k] && o[1..] == opts[k + 1..];
    assert SkipKept(o, fin) == [opts[k]] + SkipKept(opts[k + 1..], fin);
    assert SkipTallied(o, fin) == [opts[k]] + SkipTallied(opts[k + 1..], fin);
    KeepSlices(opts, k, SkipKept(opts[k + 1..], fin));
  }

  lemma KeepSlices(opts: seq<int>, k: nat, t: seq<int>)
    requires k < |opts|
    ensures opts[..k + 1] + t == opts[..k] + ([opts[k]] + t)
  {
    assert opts[..k + 1] == opts[..k] + [opts[k]];
  }

  lemma RemoveSlices(opts: seq<int>, k: nat)
    requires k + 1 < |opts|
    ensures var rest := opts[..k] + opts[k + 1..];
            && rest[..k + 1] == opts[..k] + [opts[k + 1]]
            && rest[k + 1..] == opts[k..][2..]
            && opts[k..][1] == opts[k + 1]
  {
  }

  /** The walk tallies only candidates of the list that are not in `fin`. */
  lemma {:induction false} SkipTalliedWithin(o: seq<int>, fin: seq<int>)
    ensures forall x :: x in SkipTallied(o, fin) ==> x in o && x !in fin
    decreases |o|
  {
    if o != [] {
      if o[0] in fin {
        if |o| >= 2 {
          SkipTalliedWithin(o[2..], fin);
          assert forall x :: x in o[2..] ==> x in o;
        }
      } else {
        SkipTalliedWithin(o[1..], fin);
        assert forall x :: x in o[1..] ==> x in o;
      }
    }
  }

  /** Each step of the walk on an ascending list: a candidate not in `fin`
      is tallied; a candidate in `fin` is removed, and the one after it is
      kept but never tallied, even when it is not in `fin`. */
  lemma SkipWalkStep(o: seq<int>, fin: seq<int>)
    requires Ascending(o) && o != []
    ensures o[0] !in fin ==> o[0] in SkipTallied(o, fin) && o[0] in SkipKept(o, fin)
    ensures o[0] in fin && |o| >= 2 ==> o[1] in SkipKept(o, fin) && o[1] !in SkipTallied(o, fin)
  {
    if o[0] in fin && |o| >= 2 {
      SkipTalliedWithin(o[2..], fin);
      assert o[1] !in o[2..];
    }
  }

  /** The skip drops a live candidate: with 1 final in the unit, scanning
      [1, 3, 4] removes 1 and passes over 3, which no final digit rules
      out; only 4 is tallied. */
  lemma ScanOptionsDropsLive()
    ensures ScanOptions([1, 3, 4], 0, [1]) == ([3, 4], [4])
  {
    var o: seq<int> := [1, 3, 4];
    ScanOptionsWalk(o, 0, [1]);
    assert o[0..] == o && o[..0] == [];
    assert o[2..] == [4] && 4 !in [1] && 1 in [1];
    assert [4][1..] == [];
    assert SkipKept([4], [1]) == [4] && SkipTallied([4], [1]) == [4];
    assert SkipKept(o, [1]) == [o[1]] + SkipKept(o[2..], [1]) == [3, 4];
    assert SkipTallied(o, [1]) == SkipTallied(o[2..], [1]) == [4];
    assert o[..0] + SkipKept(o[0..], [1]) == [3, 4];
  }

  /** When no candidate is already final in the unit, the scan keeps the
      list and tallies every candidate from position k on. */
  lemma {:induction false} ScanOptionsClean(opts: seq<int>, k: nat, fin: seq<int>)
    requires k <= |opts|
    requires forall x :: x in opts ==> x !in fin
    ensures ScanOptions(opts, k, fin) == (opts, opts[k..])
    decreases |opts| - k
  {
    if k < |opts| {
      assert opts[k] in opts;
      ScanOptionsClean(opts, k + 1, fin);
      assert opts[k..] == [opts[k]] + opts[k + 1..];
    }
  }

  /** The skipped candidate: with 1 and 2 already final in the unit,
      scanning [1, 2, 3] removes 1, passes over 2, and tallies only 3. */
  lemma ScanOptionsSkips()
    ensures ScanOptions([1, 2, 3], 0, [1, 2]) == ([2, 3], [3])
  {
    assert [1, 2, 3][..0] + [1, 2, 3][1..] == [2, 3];
    assert 1 in [1, 2] && 3 !in [1, 2];
    var s: seq<int> := [2, 3];
    assert s[1] == 3 && 3 !in [1, 2];
    assert ScanOptions(s, 2, [1, 2]) == (s, []);
    assert ScanOptions(s, 1, [1, 2]) == (s, [3] + []);
    var t: seq<int> := [1, 2, 3];
    assert t[0] == 1 && 1 in [1, 2] && t[..0] + t[1..] == s;
    assert ScanOptions(t, 0, [1, 2]) == ScanOptions(s, 1, [1, 2]);
    assert [3] + [] == [3];
  }

  /** An open cell of the unit with the candidates it was tallied under. */
  datatype Entry = Entry(cell: nat, tally: seq<int>)

  predicate InEntries(es: seq<Entry>, k: int) {
    exists a :: 0 <= a < |es| && es[a].cell == k
  }

  /** The final digits among the positions `js`, in order. */
  function FinalsOf(b: Board, js: seq<nat>): (r: seq<int>)
    requires |b| == 81
    requires forall a :: 0 <= a < |js| ==> js[a] < 81
    ensures forall x :: x in r <==> exists a :: 0 <= a < |js| && b[js[a]].Final? && b[js[a]].v == x
    decreases |js|
  {
    if js == [] then []
    else
      var tail := js[1..];
      assert forall a :: 1 <= a < |js| ==> js[a] == tail[a - 1];
      (if b[js[0]].Final? then [b[js[0]].v] else []) + FinalsOf(b, tail)
  }

  /** Builds the unit's tally: visits the positions `js` in order, collects
      the final digits met so far in `fin`, and scans each open cell. */
  function Purge(b: Board, js: seq<nat>, fin: seq<int>): (r: (Board, seq<Entry>))
    requires WF(b)
    requires forall a :: 0 <= a < |js| ==> js[a] < 81
    ensures |r.0| == 81 && WF(r.0) && Keeps(b, r.0) && SameFinals(b, r.0)
    ensures forall a :: 0 <= a < |r.1| ==> r.1[a].cell in js && r.1[a].cell < 81 && b[r.1[a].cell].Open?
    decreases |js|
  {
    if js == [] then (b, [])
    else
      var j := js[0];
      assert forall a :: 1 <= a < |js| ==> js[a] == js[1..][a - 1];
      match b[j]
      case Final(v, _) => Purge(b, js[1..], fin + [v])
      case Open(o) =>
        var (kept, t) := ScanOptions(o, 0, fin);
        assert CellOk(b[j]);
        NarrowCell(b, j, Open(kept));
        ReplaceOpenSameFinals(b, j, Open(kept));
        var (b2, es) := Purge(b[j := Open(kept)], js[1..], fin);
        (b2, [Entry(j, t)] + es)
  }

  /** Every open cell of `js` is tallied. */
  lemma {:induction false} PurgeCovers(b: Board, js: seq<nat>, fin: seq<int>)
    requires WF(b)
    requires forall a :: 0 <= a < |js| ==> js[a] < 81
    ensures forall c :: c in js && b[c].Open? ==> InEntries(Purge(b, js, fin).1, c)
    decreases |js|
  {
    if js != [] {
      var j := js[0];
      var tail := js[1..];
      assert forall a :: 1 <= a < |js| ==> js[a] == tail[a - 1];
      match b[j]
      case Final(v, _) =>
        PurgeCovers(b, tail, fin + [v]);
        assert Purge(b, js, fin) == Purge(b, tail, fin + [v]);
      case Open(o) =>
        var (kept, t) := ScanOptions(o, 0, fin);
        assert CellOk(b[j]);
        NarrowCell(b, j, Open(kept));
        var b1 := b[j := Open(kept)];
        PurgeCovers(b1, tail, fin);
        var es := Purge(b1, tail, fin).1;
        CoversCons(b, js, kept, t, es);
        assert Purge(b, js, fin).1 == [Entry(j, t)] + es;
    }
  }

  lemma CoversCons(b: Board, js: seq<nat>, kept: seq<int>, t: seq<int>, es: seq<Entry>)
    requires |b| == 81 && js != [] && js[0] < 81
    requires forall a :: 0 <= a < |js| ==> js[a] < 81
    requires forall c :: c in js[1..] && b[js[0] := Open(kept)][c].Open? ==> InEntries(es, c)
    ensures forall c :: c in js && b[c].Open? ==> InEntries([Entry(js[0], t)] + es, c)
  {
    var r := [Entry(js[0], t)] + es;
    forall c | c in js && b[c].Open?
      ensures InEntries(r, c)
    {
      if c == js[0] {
        assert r[0].cell == c;
      } else {
        var i :| 0 <= i < |js| && js[i] == c;
        assert js[1..][i - 1] == c;
        assert c in js[1..] && b[js[0] := Open(kept)][c].Open?;
        assert InEntries(es, c);
        var a :| 0 <= a < |es| && es[a].cell == c;
        assert r[a + 1].cell == c;
      }
    }
  }

  /** Entry `e` is tallied only under candidates its cell has on `b`, and
      under none of `fin`. */
  predicate EntryWithin(b: Board, e: Entry, fin: seq<int>)
    requires |b| == 81
  {
    e.cell < 81 ==> b[e.cell].Open? && forall x :: x in e.tally ==> x in b[e.cell].opts && x !in fin
  }

  predicate TalliedWithin(b: Board, es: seq<Entry>, fin: seq<int>)
    requires |b| == 81
  {
    forall a :: 0 <= a < |es| ==> EntryWithin(b, es[a], fin)
  }

  /** A cell is tallied only under candidates it had, and never under a
      final digit met before it in the unit. */
  lemma {:induction false} PurgeTallied(b: Board, js: seq<nat>, fin: seq<int>)
    requires WF(b)
    requires forall a :: 0 <= a < |js| ==> js[a] < 81
    ensures TalliedWithin(b, Purge(b, js, fin).1, fin)
    decreases |js|
  {
    if js != [] {
      var j := js[0];
      var tail := js[1..];
      assert forall a :: 1 <= a < |js| ==> js[a] == tail[a - 1];
      match b[j]
      case Final(v, _) =>
        PurgeTallied(b, tail, fin + [v]);
        TalliedWithinFewer(b, Purge(b, tail, fin + [v]).1, fin, v);
        assert Purge(b, js, fin) == Purge(b, tail, fin + [v]);
      case Open(o) =>
        var (kept, t) := ScanOptions(o, 0, fin);
        assert CellOk(b[j]);
        NarrowCell(b, j, Open(kept));
        var b1 := b[j := Open(kept)];
        PurgeTallied(b1, tail, fin);
        var es := Purge(b1, tail, fin).1;
        TalliedWithinCons(b, j, kept, t, es, fin);
        assert Purge(b, js, fin).1 == [Entry(j, t)] + es;
    }
  }

  lemma TalliedWithinFewer(b: Board, es: seq<Entry>, fin: seq<int>, v: int)
    requires |b| == 81 && TalliedWithin(b, es, fin + [v])
    ensures TalliedWithin(b, es, fin)
  {
    forall a | 0 <= a < |es|
      ensures EntryWithin(b, es[a], fin)
    {
      assert EntryWithin(b, es[a], fin + [v]);
      assert forall x :: x in fin ==> x in fin + [v];
    }
  }

  lemma TalliedWithinCons(b: Board, j: nat, kept: seq<int>, t: seq<int>, es: seq<Entry>, fin: seq<int>)
    requires |b| == 81 && j < 81 && b[j].Open?
    requires forall x :: x in kept ==> x in b[j].opts
    requires forall x :: x in t ==> x in kept && x !in fin
    requires TalliedWithin(b[j := Open(kept)], es, fin)
    ensures TalliedWithin(b, [Entry(j, t)] + es, fin)
  {
    var b1 := b[j := Open(kept)];
    var r := [Entry(j, t)] + es;
    forall a | 0 <= a < |r|
      ensures EntryWithin(b, r[a], fin)
    {
      if a > 0 {
        var c := es[a - 1].cell;
        assert r[a] == es[a - 1];
        assert EntryWithin(b1, es[a - 1], fin);
        if c != j && c < 81 {
          assert b1[c] == b[c];
        }
      }
    }
  }

  /** A candidate the purge removes is a final digit met before its cell
      or a final digit of the unit. */
  lemma {:induction false} PurgeRemoves(b: Board, js: seq<nat>, fin: seq<int>)
    requires WF(b)
    requires forall a :: 0 <= a < |js| ==> js[a] < 81
    ensures var r := Purge(b, js, fin).0;
            forall c, x :: 0 <= c < 81 && r[c].Open? && x in b[c].opts && x !in r[c].opts ==>
              x in fin || x in FinalsOf(b, js)
    decreases |js|
  {
    if js != [] {
      var j := js[0];
      var tail := js[1..];
      assert forall a :: 1 <= a < |js| ==> js[a] == tail[a - 1];
      var fs := FinalsOf(b, js);
      match b[j]
      case Final(v, _) =>
        PurgeRemoves(b, tail, fin + [v]);
        assert v in fs;
        assert forall x :: x in FinalsOf(b, tail) ==> x in fs;
      case Open(o) =>
        var (kept, t) := ScanOptions(o, 0, fin);
        assert CellOk(b[j]);
        NarrowCell(b, j, Open(kept));
        var b1 := b[j := Open(kept)];
        PurgeRemoves(b1, tail, fin);
        var r := Purge(b1, tail, fin).0;
        assert Purge(b, js, fin).0 == r;
        forall c, x | 0 <= c < 81 && r[c].Open? && x in b[c].opts && x !in r[c].opts
          ensures x in fin || x in fs
        {
          if c == j && x !in kept {
          } else if x in FinalsOf(b1, tail) {
            var a :| 0 <= a < |tail| && b1[tail[a]].Final? && b1[tail[a]].v == x;
            assert js[a + 1] == tail[a] && b[tail[a]] == b1[tail[a]];
          }
        }
    }
  }

  /** The cells of the tally that carry digit `d`, in unit order. */
  function Holders(es: seq<Entry>, d: int): (r: seq<nat>)
    ensures forall c :: c in r <==> exists a :: 0 <= a < |es| && es[a].cell == c && d in es[a].tally
    ensures |r| <= |es|
  {
    if es == [] then []
    else
      var rest := Holders(es[1..], d);
      assert forall a :: 1 <= a < |es| ==> es[a] == es[1..][a - 1];
      (if d in es[0].tally then [es[0].cell] else []) + rest
  }

  /** The open cells among the positions `js`, in order, each with its
      whole candidate list: the tally of a unit from which the purge
      removes nothing. */
  function OpenEntries(b: Board, js: seq<nat>): (r: seq<Entry>)
    requires |b| == 81
    requires forall a :: 0 <= a < |js| ==> js[a] < 81
    ensures forall a :: 0 <= a < |r| ==> r[a].cell in js && b[r[a].cell].Open? && r[a].tally == b[r[a].cell].opts
    ensures forall c :: c in js && b[c].Open? ==> InEntries(r, c)
    decreases |js|
  {
    if js == [] then []
    else
      var tail := js[1..];
      assert forall a :: 1 <= a < |js| ==> js[a] == tail[a - 1];
      var rest := OpenEntries(b, tail);
      if b[js[0]].Open? then
        var r := [Entry(js[0], b[js[0]].opts)] + rest;
        assert forall c :: c in js && b[c].Open? ==> InEntries(r, c) by {
          forall c | c in js && b[c].Open?
            ensures InEntries(r, c)
          {
            if c == js[0] {
              assert r[0].cell == c;
            } else {
              assert c in tail;
              var a :| 0 <= a < |rest| && rest[a].cell == c;
              assert r[a + 1].cell == c;
            }
          }
        }
        r
      else
        assert forall c :: c in js && b[c].Open? ==> c in tail;
        rest
  }

  /** Over strictly increasing positions, a digit that exactly one open
      cell c among them carries has c as its only holder in the tally of
      whole candidate lists. */
  lemma {:induction false} HoldersOpenOne(b: Board, js: seq<nat>, e: int, c: int)
    requires |b| == 81
    requires forall a :: 0 <= a < |js| ==> js[a] < 81
    requires forall a, a' :: 0 <= a < a' < |js| ==> js[a] < js[a']
    requires c in js && b[c].Open? && e in b[c].opts
    requires forall a :: 0 <= a < |js| && b[js[a]].Open? && e in b[js[a]].opts ==> js[a] == c
    ensures Holders(OpenEntries(b, js), e) == [c]
    decreases |js|
  {
    var tail := js[1..];
    assert forall a :: 1 <= a < |js| ==> js[a] == tail[a - 1];
    var rest := OpenEntries(b, tail);
    var es := OpenEntries(b, js);
    if js[0] == c {
      assert es == [Entry(c, b[c].opts)] + rest;
      assert es[1..] == rest;
      assert forall a :: 0 <= a < |rest| ==> e !in rest[a].tally;
      HoldersNone(rest, e);
    } else {
      assert c in tail;
      HoldersOpenOne(b, tail, e, c);
      if b[js[0]].Open? {
        assert es == [Entry(js[0], b[js[0]].opts)] + rest;
        assert es[1..] == rest;
        assert e !in es[0].tally;
      } else {
        assert es == rest;
      }
    }
  }

  /** Gives cell c the digit d by elimination and follows it with a full
      elimination sweep. */
  function Place(b: Board, c: int, d: int): (r: Board)
    requires WF(b) && IsPos(c) && IsDigit(d)
    ensures |r| == 81 && WF(r) && Shrinks(b, r)
    ensures r[c] == Final(d, Elimination)
    ensures forall k :: 0 <= k < 81 && k != c && b[k].Final? ==> r[k] == b[k]
    ensures forall k :: 0 <= k < 81 && k != c && r[k] != b[k] && r[k].Final? ==> r[k].origin == Strike
    ensures LostOnlyToFinals(b, r)
  {
    FinaliseCell(b, c, d, Elimination);
    var b1 := b[c := Final(d, Elimination)];
    var b2 := StrikeAll(b1).0;
    assert Keeps(b1, b2);
    assert Shrinks(b1, b2);
    ShrinksTrans(b, b1, b2);
    assert b1[c].Final? && b2[c] == b1[c];
    assert forall k :: 0 <= k < 81 && k != c && b2[k] != b[k] && b2[k].Final? ==> b2[k].origin == Strike by {
      forall k | 0 <= k < 81 && k != c && b2[k] != b[k] && b2[k].Final?
        ensures b2[k].origin == Strike
      {
        assert b1[k] == b[k];
      }
    }
    assert forall k :: 0 <= k < 81 && k != c && b[k].Final? ==> b2[k] == b[k] by {
      forall k | 0 <= k < 81 && k != c && b[k].Final?
        ensures b2[k] == b[k]
      {
        KeepsOther(b, c, Final(d, Elimination), b2, k);
      }
    }
    assert LostOnlyToFinals(b, b2) by {
      forall k | 0 <= k < 81
        ensures CellLostToFinals(b, b2, k)
      {
        if k != c {
          assert b1[k] == b[k] && CellLostToFinals(b1, b2, k);
        }
      }
    }
    b2
  }

  /** A placement that passes the conflict test keeps the board consistent. */
  lemma PlaceConsistent(b: Board, c: int, d: int)
    requires WF(b) && IsPos(c) && IsDigit(d)
    ensures Consistent(b) && !Conflict(b, c, d) ==> Consistent(Place(b, c, d))
  {
    if Consistent(b) && !Conflict(b, c, d) {
      FinaliseCell(b, c, d, Elimination);
      FinaliseConsistent(b, c, d, Elimination);
      StrikeFromConsistent(b[c := Final(d, Elimination)], 0);
    }
  }

  /** Whether digit d is tallied in exactly one cell and may be placed
      there without a conflict: no peer of that cell is final with d (the
      property Conflict decides). */
  predicate SoleHolder(b: Board, es: seq<Entry>, d: int)
    requires |b| == 81
    requires forall a :: 0 <= a < |es| ==> es[a].cell < 81
  {
    var hs := Holders(es, d);
    |hs| == 1 && (assert hs[0] in hs; forall i :: 0 <= i < 81 && Peers(i, hs[0]) && b[i].Final? ==> b[i].v != d)
  }

  /** The first digit from d on that has a sole holder, or 10 when there is
      none. */
  function FirstSole(b: Board, es: seq<Entry>, d: nat): (r: nat)
    requires |b| == 81 && 1 <= d <= 10
    requires forall a :: 0 <= a < |es| ==> es[a].cell < 81
    ensures d <= r <= 10
    ensures r <= 9 ==> SoleHolder(b, es, r)
    ensures forall e :: d <= e < r ==> !SoleHolder(b, es, e)
    decreases 10 - d
  {
    if d == 10 || SoleHolder(b, es, d) then d else FirstSole(b, es, d + 1)
  }

  /** Goes through digits d..9 in ascending order; a digit tallied in
      exactly one cell is placed there if that passes the conflict test,
      and an elimination sweep follows at once. Digits without a sole
      holder are passed over, so the first placement is at FirstSole. A
      cell this places by elimination was the only holder of its digit in
      the tally. */
  function HiddenDigits(b: Board, es: seq<Entry>, d: nat): (r: (Board, bool))
    requires WF(b) && 1 <= d <= 10
    requires forall a :: 0 <= a < |es| ==> es[a].cell < 81
    ensures |r.0| == 81 && WF(r.0) && Shrinks(b, r.0)
    ensures forall k :: 0 <= k < 81 && b[k].Final? && !InEntries(es, k) ==> r.0[k] == b[k]
    ensures r.1 ==> exists a :: 0 <= a < |es| && r.0[es[a].cell].Final?
    ensures !r.1 ==> r.0 == b
    ensures Consistent(b) ==> Consistent(r.0)
    ensures forall k :: 0 <= k < 81 && r.0[k] != b[k] && r.0[k].Final? && r.0[k].origin == Elimination ==>
              d <= r.0[k].v <= 9 && Holders(es, r.0[k].v) == [k]
    decreases 10 - d, 1
  {
    var e := FirstSole(b, es, d);
    if e == 10 then (b, false) else HiddenPlace(b, es, e)
  }

  /** The placement step of HiddenDigits for a digit with a sole holder,
      followed by the remaining digits. */
  function HiddenPlace(b: Board, es: seq<Entry>, d: nat): (r: (Board, bool))
    requires WF(b) && 1 <= d <= 9
    requires forall a :: 0 <= a < |es| ==> es[a].cell < 81
    requires SoleHolder(b, es, d)
    ensures |r.0| == 81 && WF(r.0) && Shrinks(b, r.0)
    ensures forall k :: 0 <= k < 81 && b[k].Final? && !InEntries(es, k) ==> r.0[k] == b[k]
    ensures r.1 && exists a :: 0 <= a < |es| && r.0[es[a].cell].Final?
    ensures Consistent(b) ==> Consistent(r.0)
    ensures forall k :: 0 <= k < 81 && r.0[k] != b[k] && r.0[k].Final? && r.0[k].origin == Elimination ==>
              d <= r.0[k].v <= 9 && Holders(es, r.0[k].v) == [k]
    decreases 10 - d, 0
  {
    var hs := Holders(es, d);
    var c := hs[0];
    assert c in hs && hs == [c] && InEntries(es, c);
    assert !Conflict(b, c, d);
    var b2 := Place(b, c, d);
    var (b3, f3) := HiddenDigits(b2, es, d + 1);
    PlaceConsistent(b, c, d);
    assert Consistent(b) ==> Consistent(b3);
    ShrinksTrans(b, b2, b3);
    assert b3[c].Final?;
    assert exists a :: 0 <= a < |es| && b3[es[a].cell].Final?;
    assert forall k :: 0 <= k < 81 && b[k].Final? && !InEntries(es, k) ==> b3[k] == b[k] by {
      forall k | 0 <= k < 81 && b[k].Final? && !InEntries(es, k)
        ensures b3[k] == b[k]
      {
        assert k != c && b2[k] == b[k];
      }
    }
    assert forall k :: 0 <= k < 81 && b3[k] != b[k] && b3[k].Final? && b3[k].origin == Elimination ==>
             d <= b3[k].v <= 9 && Holders(es, b3[k].v) == [k] by {
      forall k | 0 <= k < 81 && b3[k] != b[k] && b3[k].Final? && b3[k].origin == Elimination
        ensures d <= b3[k].v <= 9 && Holders(es, b3[k].v) == [k]
      {
        assert b3[k] == b2[k] ==> k == c;
      }
    }
    (b3, true)
  }

  /** The pass from d places something exactly when some digit from d on
      has a sole holder, placeable there without a conflict on the board
      the pass starts from. */
  lemma HiddenDigitsIff(b: Board, es: seq<Entry>, d: nat)
    requires WF(b) && 1 <= d <= 10
    requires forall a :: 0 <= a < |es| ==> es[a].cell < 81
    ensures HiddenDigits(b, es, d).1 <==> exists e :: d <= e <= 9 && SoleHolder(b, es, e)
  {
    var f := FirstSole(b, es, d);
    if f <= 9 {
      assert d <= f <= 9 && SoleHolder(b, es, f);
    }
  }

  /** The converse of the placement ensures of HiddenDigits: a digit e not
      below d with a sole holder makes the pass place something (e itself,
      or an earlier digit). */
  lemma HiddenDigitsPlaces(b: Board, es: seq<Entry>, d: nat, e: int)
    requires WF(b) && 1 <= d <= e <= 9
    requires forall a :: 0 <= a < |es| ==> es[a].cell < 81
    requires SoleHolder(b, es, e)
    ensures HiddenDigits(b, es, d).1
  {
    HiddenDigitsIff(b, es, d);
  }

  /** The tally of three open cells with candidates [5, 7], [5, 7] and
      [5, 7, 8]: 5 and 7 have three holders and 8 has one. */
  lemma TallyExample(p: nat, q: nat, c: nat)
    ensures var es := [Entry(p, [5, 7]), Entry(q, [5, 7]), Entry(c, [5, 7, 8])];
            Holders(es, 5) == [p, q, c] && Holders(es, 7) == [p, q, c] && Holders(es, 8) == [c]
  {
    var es := [Entry(p, [5, 7]), Entry(q, [5, 7]), Entry(c, [5, 7, 8])];
    var e3 := es[2..];
    var e2 := es[1..];
    assert e2[1..] == e3 && e3[1..] == [];
    assert Holders(e3, 8) == [c] by {
      assert Holders([], 8) == [];
    }
    assert Holders(es, 8) == [c] by {
      assert Holders(e2, 8) == [c];
    }
    assert Holders(es, 5) == [p, q, c] by {
      assert Holders(e3, 5) == [c] by {
        assert Holders([], 5) == [];
      }
      assert Holders(e2, 5) == [q, c];
    }
    assert Holders(es, 7) == [p, q, c] by {
      assert Holders(e3, 7) == [c] by {
        assert Holders([], 7) == [];
      }
      assert Holders(e2, 7) == [q, c];
    }
  }

  /** A digit no entry carries has no holder. */
  lemma HoldersNone(es: seq<Entry>, d: int)
    requires forall a :: 0 <= a < |es| ==> d !in es[a].tally
    ensures Holders(es, d) == []
  {
  }

  /** On that tally 8 is the only digit with a sole holder, so the third
      cell is the only one the pass can place by elimination, and only
      with 8 (see the last ensures of HiddenDigits). */
  lemma TallySoleHolder(p: nat, q: nat, c: nat)
    requires p != c
    ensures var es := [Entry(p, [5, 7]), Entry(q, [5, 7]), Entry(c, [5, 7, 8])];
            forall d :: Holders(es, d) == [c] <==> d == 8
    ensures var es := [Entry(p, [5, 7]), Entry(q, [5, 7]), Entry(c, [5, 7, 8])];
            forall d, k :: Holders(es, d) == [k] ==> d == 8 && k == c
  {
    var es := [Entry(p, [5, 7]), Entry(q, [5, 7]), Entry(c, [5, 7, 8])];
    TallyExample(p, q, c);
    forall d | d != 5 && d != 7 && d != 8
      ensures Holders(es, d) == []
    {
      HoldersNone(es, d);
    }
  }

  /** A purge over cells of one unit of a settled board, where no digit
      collected so far is a candidate of the cells still to come, changes
      nothing. */
  lemma {:induction false} PurgeSettled(b: Board, kind: UnitKind, k: int, js: seq<nat>, fin: seq<int>)
    requires WF(b) && Settled(b)
    requires forall a :: 0 <= a < |js| ==> js[a] < 81 && Key(kind, js[a]) == k
    requires forall x, a :: x in fin && 0 <= a < |js| && b[js[a]].Open? ==> x !in b[js[a]].opts
    ensures Purge(b, js, fin).0 == b
    ensures Purge(b, js, fin).1 == OpenEntries(b, js)
    decreases |js|
  {
    if js != [] {
      var j := js[0];
      var tail := js[1..];
      assert forall a :: 1 <= a < |js| ==> js[a] == tail[a - 1];
      match b[j]
      case Final(v, _) =>
        forall x, a | x in fin + [v] && 0 <= a < |tail| && b[tail[a]].Open?
          ensures x !in b[tail[a]].opts
        {
          if x == v {
            SameUnitPeers(kind, j, tail[a]);
          } else {
            assert js[a + 1] == tail[a];
          }
        }
        PurgeSettled(b, kind, k, tail, fin + [v]);
      case Open(o) =>
        ScanOptionsClean(o, 0, fin);
        assert o[0..] == o;
        assert b[j := Open(o)] == b;
        PurgeSettled(b, kind, k, tail, fin);
    }
  }

  /** select_only_remaining_option on one unit. Only cells of the unit
      are placed by elimination, and every placement passes the conflict
      test. */
  function HiddenUnit(b: Board, kind: UnitKind, k: int): (r: (Board, bool))
    requires WF(b)
    ensures |r.0| == 81 && WF(r.0) && Keeps(b, r.0)
    ensures r.1 <==> Progress(b, r.0)
    ensures Consistent(b) ==> Consistent(r.0)
    ensures forall j :: 0 <= j < 81 && b[j].Open? && r.0[j].Final? && r.0[j].origin == Elimination ==> Key(kind, j) == k
  {
    var js := Unit(kind, k);
    var (b1, es) := Purge(b, js, []);
    var (b2, f) := HiddenDigits(b1, es, 1);
    UnitPassKeeps(b, kind, k, b1, es, b2, f);
    UnitPassInUnit(b, kind, k, b1, es, b2, f);
    (b2, f)
  }

  /** The purge and the digit pass of one unit keep every final cell, and
      the flag reports whether an open cell was finalised. */
  lemma UnitPassKeeps(b: Board, kind: UnitKind, k: int, b1: Board, es: seq<Entry>, b2: Board, f: bool)
    requires WF(b) && (b1, es) == Purge(b, Unit(kind, k), [])
    requires (b2, f) == HiddenDigits(b1, es, 1)
    ensures Keeps(b, b2)
    ensures f <==> Progress(b, b2)
  {
    assert Keeps(b1, b2) by {
      forall j | 0 <= j < 81 && b1[j].Final?
        ensures b2[j] == b1[j]
      {
        assert !InEntries(es, j);
      }
    }
    KeepsTrans(b, b1, b2);
    if f {
      var a :| 0 <= a < |es| && b2[es[a].cell].Final?;
      var c := es[a].cell;
      assert c < 81 && b[c].Open? && b2[c].Final?;
    }
  }

  /** The digit pass of one unit places by elimination only cells of that
      unit. */
  lemma UnitPassInUnit(b: Board, kind: UnitKind, k: int, b1: Board, es: seq<Entry>, b2: Board, f: bool)
    requires WF(b) && (b1, es) == Purge(b, Unit(kind, k), [])
    requires (b2, f) == HiddenDigits(b1, es, 1)
    ensures forall j :: 0 <= j < 81 && b[j].Open? && b2[j].Final? && b2[j].origin == Elimination ==> Key(kind, j) == k
  {
    forall j | 0 <= j < 81 && b[j].Open? && b2[j].Final? && b2[j].origin == Elimination
      ensures Key(kind, j) == k
    {
      assert b2[j] != b1[j];
      assert Holders(es, b2[j].v) == [j];
      assert j in Holders(es, b2[j].v);
    }
  }

  /** A unit whose tally gives some digit a sole holder that passes the
      conflict test is a unit where the pass places a cell. */
  lemma HiddenUnitPlaces(b: Board, kind: UnitKind, k: int, e: int)
    requires WF(b) && IsDigit(e)
    requires SoleHolder(b, Purge(b, Unit(kind, k), []).1, e)
    ensures HiddenUnit(b, kind, k).1
  {
    var (b1, es) := Purge(b, Unit(kind, k), []);
    SoleHolderPurged(b, Unit(kind, k), e);
    HiddenDigitsPlaces(b1, es, 1, e);
  }

  /** The purge changes no final cell, so a sole holder on the board is
      one on the purged board too. */
  lemma SoleHolderPurged(b: Board, js: seq<nat>, e: int)
    requires WF(b) && forall a :: 0 <= a < |js| ==> js[a] < 81
    requires SoleHolder(b, Purge(b, js, []).1, e)
    ensures SoleHolder(Purge(b, js, []).0, Purge(b, js, []).1, e)
  {
    var (b1, es) := Purge(b, js, []);
    var hs := Holders(es, e);
    assert hs[0] in hs;
    ConflictSameFinals(b, b1, hs[0], e);
  }

  /** On a settled board the purge of a unit removes nothing and tallies
      every open cell of the unit with its whole candidate list. */
  lemma PurgeUnitSettled(b: Board, kind: UnitKind, k: int)
    requires WF(b) && Settled(b)
    ensures Purge(b, Unit(kind, k), []) == (b, OpenEntries(b, Unit(kind, k)))
  {
    PurgeSettled(b, kind, k, Unit(kind, k), []);
  }

  /** On a settled board, a digit that exactly one open cell of the unit
      carries is placed: the unit pass reports a placement. */
  lemma HiddenUnitSole(b: Board, kind: UnitKind, k: int, c: int, e: int)
    requires WF(b) && Settled(b) && IsPos(c) && Key(kind, c) == k
    requires b[c].Open? && e in b[c].opts
    requires forall j :: 0 <= j < 81 && Key(kind, j) == k && b[j].Open? && e in b[j].opts ==> j == c
    ensures HiddenUnit(b, kind, k).1
  {
    var js := Unit(kind, k);
    PurgeUnitSettled(b, kind, k);
    var es := Purge(b, js, []).1;
    HoldersOpenOne(b, js, e, c);
    assert CellOk(b[c]);
    assert Holders(es, e) == [c];
    assert SoleHolder(b, es, e);
    HiddenUnitPlaces(b, kind, k, e);
  }

  /** The only-if half: on a settled board, a cell the unit pass places by
      elimination is a cell of the unit that carried its new digit, and no
      other open cell of the unit carried that digit. */
  lemma HiddenUnitOnly(b: Board, kind: UnitKind, k: int, j: int)
    requires WF(b) && Settled(b) && IsPos(j) && b[j].Open?
    requires HiddenUnit(b, kind, k).0[j].Final? && HiddenUnit(b, kind, k).0[j].origin == Elimination
    ensures var d := HiddenUnit(b, kind, k).0[j].v;
            && Key(kind, j) == k && d in b[j].opts
            && forall c :: 0 <= c < 81 && Key(kind, c) == k && b[c].Open? && d in b[c].opts ==> c == j
  {
    var js := Unit(kind, k);
    PurgeUnitSettled(b, kind, k);
    var (b1, es) := Purge(b, js, []);
    var (b2, f) := HiddenDigits(b1, es, 1);
    assert HiddenUnit(b, kind, k).0 == b2;
    assert b2[j] != b1[j];
    TallySole(b, js, es, b2[j].v, j);
  }

  /** On the tally of whole candidate lists, a digit whose only holder is
      j is carried by j and by no other open cell among the positions. */
  lemma TallySole(b: Board, js: seq<nat>, es: seq<Entry>, d: int, j: int)
    requires |b| == 81
    requires forall a :: 0 <= a < |js| ==> js[a] < 81
    requires es == OpenEntries(b, js) && Holders(es, d) == [j]
    ensures j in js && b[j].Open? && d in b[j].opts
    ensures forall c :: c in js && b[c].Open? && d in b[c].opts ==> c == j
  {
    assert j in Holders(es, d);
    forall c | c in js && b[c].Open? && d in b[c].opts
      ensures c == j
    {
      assert InEntries(es, c);
      var a :| 0 <= a < |es| && es[a].cell == c;
      assert c in Holders(es, d);
    }
  }

  /** On a settled board a unit pass that places nothing changes nothing. */
  lemma HiddenUnitSettled(b: Board, kind: UnitKind, k: int)
    requires WF(b) && Settled(b)
    ensures !HiddenUnit(b, kind, k).1 ==> HiddenUnit(b, kind, k).0 == b
  {
    PurgeSettled(b, kind, k, Unit(kind, k), []);
  }

  /** select_only_remaining_option_all from unit u on: rows, then
      columns, then blocks. */
  function HiddenFrom(b: Board, u: nat): (r: (Board, bool))
    requires WF(b) && u <= 27
    ensures |r.0| == 81 && WF(r.0) && Keeps(b, r.0)
    ensures r.1 <==> Progress(b, r.0)
    ensures Consistent(b) ==> Consistent(r.0)
    decreases 27 - u
  {
    if u == 27 then (b, false)
    else
      var (kind, k) := UnitNumber(u);
      var (b1, f1) := HiddenUnit(b, kind, k);
      var (b2, f2) := HiddenFrom(b1, u + 1);
      KeepsTrans(b, b1, b2);
      assert f1 ==> Progress(b, b2) by {
        if f1 {
          var j :| 0 <= j < 81 && b[j].Open? && b1[j].Final?;
          assert b2[j].Final?;
        }
      }
      assert Progress(b, b2) ==> f1 || f2 by {
        if Progress(b, b2) && !f1 {
          var j :| 0 <= j < 81 && b[j].Open? && b2[j].Final?;
          assert b1[j].Open?;
        }
      }
      (b2, f1 || f2)
  }

  /** On a settled board a hidden-single sweep that places nothing changes
      nothing. */
  lemma {:induction false} HiddenFromSettled(b: Board, u: nat)
    requires WF(b) && Settled(b) && u <= 27
    ensures !HiddenFrom(b, u).1 ==> HiddenFrom(b, u).0 == b
    decreases 27 - u
  {
    if u < 27 {
      var (kind, k) := UnitNumber(u);
      HiddenUnitSettled(b, kind, k);
      if !HiddenUnit(b, kind, k).1 {
        HiddenFromSettled(b, u + 1);
      }
    }
  }

  /** On a settled board, a digit carried by a single open cell of unit
      w makes the passes from unit u <= w on report a placement: either an
      earlier unit places something, or it leaves the board as it was and
      unit w places the digit. */
  lemma {:induction false} HiddenFromSole(b: Board, u: nat, w: nat, c: int, e: int)
    requires WF(b) && Settled(b) && u <= w < 27 && IsPos(c)
    requires Key(UnitNumber(w).0, c) == UnitNumber(w).1 && b[c].Open? && e in b[c].opts
    requires forall j :: 0 <= j < 81 && Key(UnitNumber(w).0, j) == UnitNumber(w).1 && b[j].Open? && e in b[j].opts ==> j == c
    ensures HiddenFrom(b, u).1
    decreases w - u
  {
    var (kind, k) := UnitNumber(u);
    HiddenFromStep(b, u);
    if u == w {
      HiddenUnitSole(b, kind, k, c, e);
    } else {
      HiddenUnitSettled(b, kind, k);
      if !HiddenUnit(b, kind, k).1 {
        HiddenFromSole(b, u + 1, w, c, e);
      }
    }
  }

  /** The flag of the passes from unit u: unit u's own flag, or the flag
      of the passes from u + 1 on the board unit u leaves. */
  lemma HiddenFromStep(b: Board, u: nat)
    requires WF(b) && u < 27
    ensures var (kind, k) := UnitNumber(u);
            HiddenFrom(b, u).1 == (HiddenUnit(b, kind, k).1 || HiddenFrom(HiddenUnit(b, kind, k).0, u + 1).1)
  {
  }

  /** One hidden-single pass over all 27 units; the flag says whether some
      open cell was finalised. */
  function HiddenAll(b: Board): (r: (Board, bool))
    requires WF(b)
    ensures |r.0| == 81 && WF(r.0) && Keeps(b, r.0)
    ensures r.1 <==> Progress(b, r.0)
    ensures Consistent(b) ==> Consistent(r.0)
  {
    HiddenFrom(b, 0)
  }

  /** A settled board on which the pass places nothing is returned as it
      was: purging removes only digits already struck out. */
  lemma HiddenAllSettled(b: Board)
    requires WF(b) && Settled(b)
    ensures !HiddenAll(b).1 ==> HiddenAll(b).0 == b
  {
    HiddenFromSettled(b, 0);
  }

  /** On a settled board, a digit that only one open cell of some row,
      column or block can take makes the full pass report a placement. */
  lemma HiddenAllSole(b: Board, kind: UnitKind, c: int, e: int)
    requires WF(b) && Settled(b) && IsPos(c) && b[c].Open? && e in b[c].opts
    requires forall j :: 0 <= j < 81 && Key(kind, j) == Key(kind, c) && b[j].Open? && e in b[j].opts ==> j == c
    ensures HiddenAll(b).1
  {
    var w := (match kind case Row => 0 case Col => 9 case Block => 18) + Key(kind, c);
    assert UnitNumber(w) == (kind, Key(kind, c));
    HiddenFromSole(b, 0, w, c, e);
  }
}

=== FILE: search.dfy ===
/** The search: pick the open cell with the fewest candidates, try each of
    its candidates in turn on a copy of the board marked as a guess, and
    propagate and search again on that copy. */
module Guessing {
  import opened Cells
  import opened Geometry
  import opened Boards
  import opened Strike
  import opened Hidden
  import opened Propagation

  /** i is an open cell with the fewest candidates on the board, and no
      open cell before it in row-major order has as few. */
  predicate IsMinCell(b: Board, i: int)
    requires |b| == 81
  {
    && 0 <= i < 81 && b[i].Open?
    && (forall j :: 0 <= j < 81 && b[j].Open? ==> |b[i].opts| <= |b[j].opts|)
    && (forall j :: 0 <= j < i && b[j].Open? ==> |b[i].opts| < |b[j].opts|)
  }

  /** What the scan of positions 0..n-1 has found: the best candidate
      count so far (10 before any open cell is met) and its position. */
  predicate ScanState(b: Board, n: nat, min: int, idx: Option<int>)
    requires |b| == 81 && n <= 81
  {
    match idx
    case None => min == 10 && forall j :: 0 <= j < n && b[j].Open? ==> |b[j].opts| >= 10
    case Some(i) =>
      && 0 <= i < n && b[i].Open? && |b[i].opts| == min && min < 10
      && (forall j :: 0 <= j < n && b[j].Open? ==> min <= |b[j].opts|)
      && (forall j :: 0 <= j < i && b[j].Open? ==> min < |b[j].opts|)
  }

  /** The scan of locate_minimal_options_cell from position n on: final
      cells are passed over, and an open cell replaces the best so far
      only with strictly fewer candidates. */
  function LocateFrom(b: Board, n: nat, min: int, idx: Option<int>): (r: Option<int>)
    requires |b| == 81 && n <= 81 && ScanState(b, n, min, idx)
    ensures r.None? <==> forall j :: 0 <= j < 81 && b[j].Open? ==> |b[j].opts| >= 10
    ensures r.Some? ==> IsMinCell(b, r.value)
    decreases 81 - n
  {
    if n == 81 then idx
    else if b[n].Final? then LocateFrom(b, n + 1, min, idx)
    else if |b[n].opts| < min then LocateFrom(b, n + 1, |b[n].opts|, Some(n))
    else LocateFrom(b, n + 1, min, idx)
  }

  /** locate_minimal_options_cell: the first open cell with the fewest
      candidates, or None when there is no open cell. */
  function LocateMin(b: Board): (r: Option<int>)
    requires WF(b)
    ensures r.None? <==> AllFinal(b)
    ensures r.Some? ==> IsMinCell(b, r.value)
  {
    assert forall j :: 0 <= j < 81 && b[j].Open? ==> |b[j].opts| <= 9 by {
      forall j | 0 <= j < 81 && b[j].Open?
        ensures |b[j].opts| <= 9
      {
        CellOkCandidates(b[j]);
      }
    }
    LocateFrom(b, 0, 10, None)
  }

  /** How the whole run ends: with a complete board, with every branch of
      the search exhausted, or by indexing the board with no cell. */
  datatype Verdict = Solution(board: Board) | NoSolution | Crashed

  /** A candidate of a settled board's open cell clashes with no peer, so
      a guess needs no conflict test to keep the board consistent. */
  lemma GuessConsistent(s: Board, i: int, d: int)
    requires WF(s) && Settled(s) && IsPos(i) && s[i].Open? && d in s[i].opts
    ensures !Conflict(s, i, d)
  {
  }

  /** The guess of digit d at open cell i on a copy of the board. The
      digit is not checked against the cell's candidates. */
  function GuessAt(s: Board, i: int, d: int): (g: Board)
    requires WF(s) && IsPos(i) && s[i].Open? && IsDigit(d)
    ensures WF(g) && Keeps(s, g) && CountOpen(g) < CountOpen(s)
    ensures g[i] == Final(d, Guess)
    ensures forall k :: 0 <= k < 81 && k != i ==> g[k] == s[k]
    ensures Settled(s) && Consistent(s) && d in s[i].opts ==> Consistent(g)
  {
    var g := s[i := Final(d, Guess)];
    FinaliseOpenCell(s, i, d, Guess);
    ShrinksCount(s, g);
    assert Settled(s) && Consistent(s) && d in s[i].opts ==> Consistent(g) by {
      if Settled(s) && Consistent(s) && d in s[i].opts {
        GuessConsistent(s, i, d);
        FinaliseConsistent(s, i, d, Guess);
      }
    }
    g
  }

  /** The search with the completion test done before a branch cell is
      chosen. Propagation runs first; a complete board is a solution even
      when propagation only stalled on it. */
  function Search(b: Board): (r: Verdict)
    requires WF(b)
    ensures r != Crashed
    ensures r.Solution? ==> WF(r.board) && AllFinal(r.board) && Keeps(b, r.board)
    ensures r.Solution? && Consistent(b) ==> Consistent(r.board)
    decreases CountOpen(b), 1, 0
  {
    var p := Propagate(b);
    var s := p.board;
    ShrinksCount(b, s);
    if p.Solved? || CheckBoardSolved(s) then Solution(s)
    else
      assert Settled(s) && Keeps(b, s);
      var i := LocateMin(s).value;
      assert IsMinCell(s, i);
      var r := Branch(s, i, s[i].opts);
      assert r.Solution? ==> Keeps(b, r.board) by {
        if r.Solution? {
          KeepsTrans(b, s, r.board);
        }
      }
      r
  }

  /** What the search does after propagation: a complete board is the
      solution; otherwise the board is settled, and the search branches on
      the first open cell with the fewest candidates, failing exactly when
      every candidate's copy fails and otherwise returning one copy's
      solution. */
  lemma SearchBranches(b: Board)
    requires WF(b)
    ensures var s := Propagate(b).board;
            AllFinal(s) ==> Search(b) == Solution(s)
    ensures var s := Propagate(b).board;
            !AllFinal(s) ==> Propagate(b).Stalled? && Settled(s) && LocateMin(s).Some? && IsMinCell(s, LocateMin(s).value)
    ensures var s := Propagate(b).board;
            !AllFinal(s) ==>
              var i := LocateMin(s).value;
              && (Search(b).NoSolution? <==> forall d :: d in s[i].opts ==> Attempt(s, i, d) == NoSolution)
              && (Search(b).Solution? ==> exists d :: d in s[i].opts && Search(b) == Attempt(s, i, d))
  {
    var s := Propagate(b).board;
    if !AllFinal(s) {
      var i := LocateMin(s).value;
      assert !CheckBoardSolved(s);
      assert Search(b) == Branch(s, i, s[i].opts);
      BranchByDigit(s, i);
    }
  }

  /** Branch over a cell's whole candidate list, stated digit by digit. */
  lemma BranchByDigit(s: Board, i: int)
    requires WF(s) && Settled(s) && IsPos(i) && s[i].Open?
    ensures var r := Branch(s, i, s[i].opts);
            && (r.NoSolution? <==> forall d :: d in s[i].opts ==> Attempt(s, i, d) == NoSolution)
            && (r.Solution? ==> exists d :: d in s[i].opts && r == Attempt(s, i, d))
  {
    var opts := s[i].opts;
    var r := Branch(s, i, opts);
    if forall d :: d in opts ==> Attempt(s, i, d) == NoSolution {
      assert forall a :: 0 <= a < |opts| ==> opts[a] in opts;
    }
    if r.NoSolution? {
      forall d | d in opts
        ensures Attempt(s, i, d) == NoSolution
      {
        var a :| 0 <= a < |opts| && opts[a] == d;
      }
    }
    if r.Solution? {
      var a :| 0 <= a < |opts| && r == Attempt(s, i, opts[a]);
      assert opts[a] in opts;
    }
  }

  /** One round of split_and_guess: a copy of the board with d guessed at
      cell i, searched on its own. */
  function Attempt(s: Board, i: int, d: int): (r: Verdict)
    requires WF(s) && IsPos(i) && s[i].Open? && d in s[i].opts
    ensures r != Crashed
    ensures r.Solution? ==> WF(r.board) && AllFinal(r.board) && Keeps(s, r.board) && r.board[i] == Final(d, Guess)
    ensures r.Solution? && Settled(s) && Consistent(s) ==> Consistent(r.board)
    decreases CountOpen(s), 0, 0
  {
    assert CellOk(s[i]);
    var g := GuessAt(s, i, d);
    var r := Search(g);
    assert r.Solution? ==> Keeps(s, r.board) by {
      if r.Solution? {
        KeepsTrans(s, g, r.board);
      }
    }
    r
  }

  /** split_and_guess on cell i of a stalled board: the candidates in
      `opts` are tried in list order, each on its own copy; the first
      copy whose search succeeds gives the result, and the branch fails
      only when every copy fails. */
  function Branch(s: Board, i: int, opts: seq<int>): (r: Verdict)
    requires WF(s) && Settled(s) && IsPos(i) && s[i].Open?
    requires forall x :: x in opts ==> x in s[i].opts
    ensures r != Crashed
    ensures r.Solution? ==> WF(r.board) && AllFinal(r.board) && Keeps(s, r.board)
    ensures r.Solution? && Consistent(s) ==> Consistent(r.board)
    ensures r.Solution? ==> exists a :: 0 <= a < |opts| && r == Attempt(s, i, opts[a])
    ensures r.NoSolution? <==> forall a :: 0 <= a < |opts| ==> Attempt(s, i, opts[a]) == NoSolution
    decreases CountOpen(s), 0, |opts| + 1
  {
    if opts == [] then NoSolution
    else
      var r := Attempt(s, i, opts[0]);
      if r.Solution? then r
      else
        var rest := opts[1..];
        assert forall a :: 0 <= a < |rest| ==> rest[a] == opts[a + 1];
        var r2 := Branch(s, i, rest);
        assert r2.Solution? ==> exists a :: 0 <= a < |opts| && r2 == Attempt(s, i, opts[a]) by {
          if r2.Solution? {
            var a :| 0 <= a < |rest| && r2 == Attempt(s, i, rest[a]);
            assert rest[a] == opts[a + 1];
          }
        }
        assert (forall a :: 0 <= a < |rest| ==> Attempt(s, i, rest[a]) == NoSolution) ==>
               (forall a :: 0 <= a < |opts| ==> Attempt(s, i, opts[a]) == NoSolution) by {
          if forall a :: 0 <= a < |rest| ==> Attempt(s, i, rest[a]) == NoSolution {
            forall a | 0 <= a < |opts|
              ensures Attempt(s, i, opts[a]) == NoSolution
            {
              if a == 0 {
                assert r == NoSolution;
              } else {
                assert opts[a] == rest[a - 1];
                assert Attempt(s, i, rest[a - 1]) == NoSolution;
              }
            }
          }
        }
        r2
  }

  /** The candidate that gives a branch its solution is the first one
      whose copy succeeds: every candidate before it failed. */
  lemma {:induction false} BranchFirst(s: Board, i: int, opts: seq<int>)
    requires WF(s) && Settled(s) && IsPos(i) && s[i].Open?
    requires forall x :: x in opts ==> x in s[i].opts
    ensures Branch(s, i, opts).Solution? ==>
              exists a :: 0 <= a < |opts| && Branch(s, i, opts) == Attempt(s, i, opts[a]) &&
                (forall e :: 0 <= e < a ==> Attempt(s, i, opts[e]) == NoSolution)
    decreases |opts|
  {
    if opts != [] && !Attempt(s, i, opts[0]).Solution? {
      var rest := opts[1..];
      BranchFirst(s, i, rest);
      var r := Branch(s, i, opts);
      assert r == Branch(s, i, rest);
      if r.Solution? {
        var a :| 0 <= a < |rest| && r == Attempt(s, i, rest[a]) &&
                 (forall e :: 0 <= e < a ==> Attempt(s, i, rest[e]) == NoSolution);
        assert rest[a] == opts[a + 1];
        forall e | 0 <= e < a + 1
          ensures Attempt(s, i, opts[e]) == NoSolution
        {
          if e > 0 {
            assert opts[e] == rest[e - 1];
          }
        }
      }
    }
  }

  /** The search as the original code runs it, on a board of its own:
      propagate, and when that stalls choose a branch cell and run the
      branch loop on it; with no cell to choose the board is indexed with
      no cell. Besides the verdict, returns the cell chosen, which the
      caller's loop takes over as its own. */
  function SearchAsWritten(b: Board): (r: (Verdict, Option<int>))
    requires WF(b)
    ensures r.0.Solution? ==> WF(r.0.board) && AllFinal(r.0.board) && Keeps(b, r.0.board)
    ensures r.0.NoSolution? ==> r.1.Some? && IsPos(r.1.value) && b[r.1.value].Open?
    decreases CountOpen(b), 1, 0
  {
    var p := Propagate(b);
    var s := p.board;
    ShrinksCount(b, s);
    if p.Solved? then (Solution(s), None)
    else
      match LocateMin(s)
      case None => (Crashed, None)
      case Some(i) =>
        assert IsMinCell(s, i) && CellOk(s[i]);
        var r := BranchAsWritten(s, i, s[i].opts);
        assert r.Solution? ==> Keeps(b, r.board) by {
          if r.Solution? {
            KeepsTrans(b, s, r.board);
          }
        }
        (r, Some(i))
  }

  /** What the search as written does after propagation: a solved board
      is returned; a board that stalled complete crashes it; otherwise it
      runs the as-written loop on the first open cell with the fewest
      candidates and its whole candidate list, and reports that cell. */
  lemma SearchBranchesAsWritten(b: Board)
    requires WF(b)
    ensures var p := Propagate(b);
            p.Solved? ==> SearchAsWritten(b).0 == Solution(p.board)
    ensures var p := Propagate(b);
            p.Stalled? && AllFinal(p.board) ==> SearchAsWritten(b).0 == Crashed
    ensures var s := Propagate(b).board;
            !AllFinal(s) ==>
              && LocateMin(s).Some? && IsMinCell(s, LocateMin(s).value)
              && CellOk(s[LocateMin(s).value])
              && var i := LocateMin(s).value;
                 SearchAsWritten(b) == (BranchAsWritten(s, i, s[i].opts), Some(i))
  {
    var s := Propagate(b).board;
    if !AllFinal(s) {
      assert CellOk(s[LocateMin(s).value]);
    }
  }

  /** split_and_guess as written. `opts` are the candidates of the cell
      first chosen, read once when the loop starts. Each is guessed at
      cell i on its own copy of `s`, with no conflict test, and the copy
      is searched. A copy that comes back without a solution has chosen
      its own branch cell, and the loop's cell is rebound to it, so the
      next candidate is guessed there. A crash in a copy ends the run. */
  function BranchAsWritten(s: Board, i: int, opts: seq<int>): (r: Verdict)
    requires WF(s) && IsPos(i) && s[i].Open?
    requires forall x :: x in opts ==> IsDigit(x)
    ensures r.Solution? ==> WF(r.board) && AllFinal(r.board) && Keeps(s, r.board)
    decreases CountOpen(s), 0, |opts|
  {
    if opts == [] then NoSolution
    else
      var g := GuessAt(s, i, opts[0]);
      var (v, next) := SearchAsWritten(g);
      if v.NoSolution? then
        assert g[next.value].Open?;
        BranchAsWritten(s, next.value, opts[1..])
      else
        assert v.Solution? ==> Keeps(s, v.board) by {
          if v.Solution? {
            KeepsTrans(s, g, v.board);
          }
        }
        v
  }

  /** The rebinding: when the first candidate's copy comes back without
      a solution, having chosen cell j, the remaining candidates are
      guessed at j instead of at i. Cell j is another cell, open on the
      parent board, and on the copy the second candidate is guessed on,
      cell i is still open: that candidate is never tried at i. */
  lemma RebindMovesGuess(s: Board, i: int, opts: seq<int>, j: int)
    requires WF(s) && IsPos(i) && s[i].Open? && |opts| >= 2
    requires forall x :: x in opts ==> IsDigit(x)
    requires SearchAsWritten(GuessAt(s, i, opts[0])) == (NoSolution, Some(j))
    ensures j != i && IsPos(j) && s[j].Open?
    ensures BranchAsWritten(s, i, opts) == BranchAsWritten(s, j, opts[1..])
    ensures GuessAt(s, j, opts[1])[i] == s[i] && s[i].Open?
  {
    var g := GuessAt(s, i, opts[0]);
    assert g[j].Open?;
  }

  /** Both loops search the same first copy: when propagation alone
      completes it, the original and the corrected branch return it. */
  lemma FirstCopyAgrees(s: Board, i: int, opts: seq<int>)
    requires WF(s) && Settled(s) && IsPos(i) && s[i].Open?
    requires opts != [] && forall x :: x in opts ==> x in s[i].opts
    requires Propagate(GuessAt(s, i, opts[0])).Solved?
    ensures BranchAsWritten(s, i, opts) == Branch(s, i, opts) == Solution(Propagate(GuessAt(s, i, opts[0])).board)
  {
    assert CellOk(s[i]);
    var g := GuessAt(s, i, opts[0]);
    assert Attempt(s, i, opts[0]) == Search(g);
  }

  /** The completed-board crash: on a board with every cell final, the
      original search crashes where the corrected one returns the board. */
  lemma CompleteBoardCrashes(b: Board)
    requires WF(b) && AllFinal(b)
    ensures SearchAsWritten(b).0 == Crashed
    ensures Search(b) == Solution(b)
  {
    PropagateComplete(b);
  }

  /** The same crash one level down: a guess that fills the last open cell
      crashes the original loop, while the corrected one accepts it. */
  lemma LastGuessCrashes(s: Board, i: int, opts: seq<int>)
    requires WF(s) && Settled(s) && IsPos(i) && s[i].Open?
    requires forall k :: 0 <= k < 81 && k != i ==> s[k].Final?
    requires opts != [] && forall x :: x in opts ==> x in s[i].opts
    ensures BranchAsWritten(s, i, opts) == Crashed
    ensures Branch(s, i, opts) == Solution(GuessAt(s, i, opts[0]))
  {
    assert CellOk(s[i]);
    var g := GuessAt(s, i, opts[0]);
    PropagateComplete(g);
    assert Attempt(s, i, opts[0]) == Search(g);
  }

  /** solve_board on a grid of 81 entries, each missing or a digit: load,
      then search. A solution is complete, keeps every supplied entry, and
      breaks no rule when the supplied entries break none. */
  function Solve(g: seq<Option<int>>): (r: Verdict)
    requires ValidGrid(g)
    ensures r != Crashed
    ensures r.Solution? ==> WF(r.board) && AllFinal(r.board)
    ensures r.Solution? ==> forall i :: 0 <= i < 81 && g[i].Some? ==> r.board[i] == Final(g[i].value, AlreadySupplied)
    ensures r.Solution? && DistinctClues(g) ==> Consistent(r.board)
  {
    LoadWF(g);
    Search(Load(g))
  }

  /** solve_board as written, crash and rebinding included. A solution is
      still complete and keeps every supplied entry. */
  function SolveAsWritten(g: seq<Option<int>>): (r: Verdict)
    requires ValidGrid(g)
    ensures r.Solution? ==> WF(r.board) && AllFinal(r.board)
    ensures r.Solution? ==> forall i :: 0 <= i < 81 && g[i].Some? ==> r.board[i] == Final(g[i].value, AlreadySupplied)
  {
    LoadWF(g);
    SearchAsWritten(Load(g)).0
  }

  /** The driver searches after propagating the loaded grid: a complete
      board is the solution, and otherwise it branches on the first open
      cell with the fewest candidates. */
  lemma SolveBranches(g: seq<Option<int>>)
    requires ValidGrid(g)
    ensures WF(Load(g))
    ensures var s := Propagate(Load(g)).board;
            AllFinal(s) ==> Solve(g) == Solution(s)
    ensures var s := Propagate(Load(g)).board;
            !AllFinal(s) ==>
              && LocateMin(s).Some? && IsMinCell(s, LocateMin(s).value)
              && var i := LocateMin(s).value;
                 && (Solve(g).NoSolution? <==> forall d :: d in s[i].opts ==> Attempt(s, i, d) == NoSolution)
                 && (Solve(g).Solution? ==> exists d :: d in s[i].opts && Solve(g) == Attempt(s, i, d))
  {
    LoadWF(g);
    SearchBranches(Load(g));
  }

  /** The driver as written after propagating the loaded grid: a solved
      board is returned, a board that stalled complete crashes it, and
      otherwise it runs the as-written loop on the first open cell with
      the fewest candidates. */
  lemma SolveBranchesAsWritten(g: seq<Option<int>>)
    requires ValidGrid(g)
    ensures WF(Load(g))
    ensures var p := Propagate(Load(g));
            p.Solved? ==> SolveAsWritten(g) == Solution(p.board)
    ensures var p := Propagate(Load(g));
            p.Stalled? && AllFinal(p.board) ==> SolveAsWritten(g) == Crashed
    ensures var s := Propagate(Load(g)).board;
            !AllFinal(s) ==>
              && LocateMin(s).Some? && IsMinCell(s, LocateMin(s).value)
              && CellOk(s[LocateMin(s).value])
              && var i := LocateMin(s).value;
                 SolveAsWritten(g) == BranchAsWritten(s, i, s[i].opts)
  {
    LoadWF(g);
    SearchBranchesAsWritten(Load(g));
  }

  /** A grid with all 81 entries supplied crashes the original solver. */
  lemma FullGridCrashes(g: seq<Option<int>>)
    requires ValidGrid(g) && forall i :: 0 <= i < 81 ==> g[i].Some?
    ensures SolveAsWritten(g) == Crashed
    ensures Solve(g) == Solution(Load(g))
  {
    LoadWF(g);
    CompleteBoardCrashes(Load(g));
  }
}

=== FILE: solver.dfy ===
/** The propagation loop: alternate full elimination sweeps and
    hidden-single passes until the board is complete or neither rule
    places anything. */
module Propagation {
  import opened Cells
  import opened Geometry
  import opened Boards
  import opened Strike
  import opened Hidden

  /** How propagation ends: the completion test succeeded after a pass
      that placed something, or a hidden-single pass placed nothing. */
  datatype Outcome = Solved(board: Board) | Stalled(board: Board)

  /** simple_solver. Sweeps repeat while they place something; after a
      sweep that places nothing comes one hidden-single pass, and the loop
      starts over if it placed something. The completion test runs only
      after a pass that placed a cell. */
  function Propagate(b: Board): (r: Outcome)
    requires WF(b)
    ensures WF(r.board) && Keeps(b, r.board)
    ensures r.Solved? ==> AllFinal(r.board)
    ensures r.Stalled? ==> Settled(r.board)
    ensures r.Stalled? ==> StrikeAll(r.board) == (r.board, false) && HiddenAll(r.board) == (r.board, false)
    ensures Consistent(b) ==> Consistent(r.board)
    decreases CountOpen(b)
  {
    var (b1, f) := StrikeAll(b);
    StrikeAllConsistent(b);
    if f then
      ShrinksCount(b, b1);
      if CheckBoardSolved(b1) then Solved(b1)
      else
        var r := Propagate(b1);
        KeepsTrans(b, b1, r.board);
        r
    else
      StrikeAllSettles(b);
      var (b2, g) := HiddenAll(b1);
      KeepsTrans(b, b1, b2);
      if g then
        ShrinksCount(b, b1);
        ShrinksCount(b1, b2);
        if CheckBoardSolved(b2) then Solved(b2)
        else
          var r := Propagate(b2);
          KeepsTrans(b, b2, r.board);
          r
      else
        HiddenAllSettled(b1);
        StrikeAllNoop(b1);
        Stalled(b2)
  }

  /** A complete board gives no pass anything to place, so propagation
      reports it as stalled: the completion test is never reached. */
  lemma PropagateComplete(b: Board)
    requires WF(b) && AllFinal(b)
    ensures Propagate(b) == Stalled(b)
  {
    StrikeAllNoop(b);
    assert !HiddenAll(b).1;
    HiddenAllSettled(b);
  }

  /** Propagation reaches a fixpoint: run again on its own result it
      stalls at once and changes nothing. */
  lemma PropagateIdempotent(b: Board)
    requires WF(b)
    ensures Propagate(Propagate(b).board) == Stalled(Propagate(b).board)
  {
    var r := Propagate(b);
    if r.Solved? {
      PropagateComplete(r.board);
    }
  }
}

=== FILE: strike.dfy ===
/** The elimination ("strike") rule: a final digit is struck from the
    candidates of every peer, and a peer cut down to one candidate is
    finalised with it when that passes the conflict test. */
module Strike {
  import opened Cells
  import opened Geometry
  import opened Boards

  /** Strikes `v` from the cell at position j; the flag says whether the
      cell was finalised. */
  function StrikeOne(b: Board, v: int, j: int): (r: (Board, bool))
    requires WF(b) && IsPos(j)
    ensures |r.0| == 81 && WF(r.0) && Keeps(b, r.0)
    ensures forall k :: 0 <= k < 81 && k != j ==> r.0[k] == b[k]
    ensures r.0[j].Open? ==> v !in r.0[j].opts
    ensures r.1 <==> b[j].Open? && r.0[j].Final?
    ensures b[j].Open? && r.0[j].Final? ==>
              && r.0[j].origin == Strike && v in b[j].opts && |b[j].opts| == 2
              && r.0[j].v in b[j].opts && r.0[j].v != v
    ensures b[j].Final? || v !in b[j].opts ==> r.0 == b
  {
    var (c, removed) := RemoveOption(b[j], v);
    var b1 := b[j := c];
    assert CellOk(b[j]);
    if removed && |c.opts| == 1 && !Conflict(b1, j, c.opts[0]) then
      var p := c.opts[0];
      assert p in c.opts && p in b[j].opts && p != v;
      FinaliseOpenCell(b, j, p, Strike);
      (b[j := Final(p, Strike)], true)
    else if b[j].Open? then
      NarrowCell(b, j, c);
      (b1, false)
    else
      assert b1 == b;
      (b1, false)
  }

  /** A cell the strike leaves open loses `v` and nothing else: every
      other candidate stays. */
  lemma StrikeOneKeepsOthers(b: Board, v: int, j: int)
    requires WF(b) && IsPos(j)
    ensures var r := StrikeOne(b, v, j).0;
            r[j].Open? ==> forall x :: x != v ==> (x in r[j].opts <==> x in b[j].opts)
  {
  }

  /** A strike finalises a cell only with a digit that passed the
      conflict test. */
  lemma StrikeOneChecked(b: Board, v: int, j: int)
    requires WF(b) && IsPos(j)
    ensures var r := StrikeOne(b, v, j);
            b[j].Open? && r.0[j].Final? ==> !Conflict(b, j, r.0[j].v)
  {
    var (c, removed) := RemoveOption(b[j], v);
    var b1 := b[j := c];
    if removed && |c.opts| == 1 && !Conflict(b1, j, c.opts[0]) {
      ReplaceOpenSameFinals(b, j, c);
      ConflictSameFinals(b, b1, j, c.opts[0]);
      assert StrikeOne(b, v, j).0[j].v == c.opts[0];
    } else {
      assert !StrikeOne(b, v, j).1;
    }
  }

  /** The converse: an open cell holding `v` and one other candidate `p`
      is finalised with `p` unless a peer already holds `p`, in which case
      it keeps `p` as its only candidate. */
  lemma StrikeOnePair(b: Board, v: int, j: int, p: int)
    requires WF(b) && IsPos(j)
    requires b[j].Open? && v in b[j].opts && |b[j].opts| == 2 && p in b[j].opts && p != v
    ensures StrikeOne(b, v, j).0[j] == if Conflict(b, j, p) then Open([p]) else Final(p, Strike)
  {
    var (c, removed) := RemoveOption(b[j], v);
    var b1 := b[j := c];
    assert p in c.opts && |c.opts| == 1;
    assert c.opts == [p];
    ReplaceOpenSameFinals(b, j, c);
    ConflictSameFinals(b, b1, j, p);
  }

  /** Hence a strike keeps a consistent board consistent. */
  lemma StrikeOneConsistent(b: Board, v: int, j: int)
    requires WF(b) && IsPos(j) && Consistent(b)
    ensures Consistent(StrikeOne(b, v, j).0)
  {
    var r := StrikeOne(b, v, j).0;
    if b[j].Open? && r[j].Final? {
      StrikeOneChecked(b, v, j);
      FinaliseConsistent(b, j, r[j].v, Strike);
      assert r == b[j := Final(r[j].v, Strike)];
    } else {
      assert SameFinals(b, r);
    }
  }

  /** Strikes `v` from each position of `js` in turn. */
  function StrikeList(b: Board, v: int, js: seq<nat>): (r: (Board, bool))
    requires WF(b)
    requires forall a :: 0 <= a < |js| ==> IsPos(js[a])
    ensures |r.0| == 81 && WF(r.0) && Keeps(b, r.0)
    ensures r.1 <==> Progress(b, r.0)
    decreases |js|
  {
    if js == [] then (b, false)
    else
      var (b1, f1) := StrikeOne(b, v, js[0]);
      var (b2, f2) := StrikeList(b1, v, js[1..]);
      assert f1 ==> Progress(b, b2) by {
        if f1 {
          assert b[js[0]].Open? && b2[js[0]].Final?;
        }
      }
      assert Progress(b, b2) ==> f1 || f2 by {
        if Progress(b, b2) && !f1 {
          var k :| 0 <= k < 81 && b[k].Open? && b2[k].Final?;
          assert b1[k].Open?;
        }
      }
      (b2, f1 || f2)
  }

  /** What a strike of `v` over `js` does to each cell: cells outside `js`
      are untouched, open cells of `js` lose `v`, and a cell is finalised
      only when it held `v` and exactly one other candidate, which it
      takes. */
  lemma {:induction false} StrikeListCells(b: Board, v: int, js: seq<nat>)
    requires WF(b)
    requires forall a :: 0 <= a < |js| ==> IsPos(js[a])
    ensures var r := StrikeList(b, v, js).0;
            forall k :: 0 <= k < 81 && k !in js ==> r[k] == b[k]
    ensures var r := StrikeList(b, v, js).0;
            forall k :: 0 <= k < 81 && k in js && r[k].Open? ==> v !in r[k].opts
    ensures var r := StrikeList(b, v, js).0;
            forall k, x :: 0 <= k < 81 && r[k].Open? && x != v ==> (x in r[k].opts <==> x in b[k].opts)
    ensures var r := StrikeList(b, v, js).0;
            forall k :: 0 <= k < 81 && b[k].Open? && r[k].Final? ==>
              && r[k].origin == Strike && v in b[k].opts && |b[k].opts| == 2
              && r[k].v in b[k].opts && r[k].v != v
    decreases |js|
  {
    if js != [] {
      var (b1, f1) := StrikeOne(b, v, js[0]);
      StrikeOneKeepsOthers(b, v, js[0]);
      StrikeListCells(b1, v, js[1..]);
      var b2 := StrikeList(b1, v, js[1..]).0;
      assert StrikeList(b, v, js).0 == b2;
      forall k | 0 <= k < 81 && k in js && b2[k].Open?
        ensures v !in b2[k].opts
      {
        if k !in js[1..] {
          assert k == js[0];
        }
      }
      forall k | 0 <= k < 81 && b[k].Open? && b2[k].Final?
        ensures b2[k].origin == Strike && v in b[k].opts && |b[k].opts| == 2
        ensures b2[k].v in b[k].opts && b2[k].v != v
      {
        if b1[k].Final? {
          assert b2[k] == b1[k];
        }
      }
    }
  }

  /** A strike of `v` over `js` leaves alone an open cell that lacks `v`. */
  lemma {:induction false} StrikeListUntouched(b: Board, v: int, js: seq<nat>, k: int)
    requires WF(b) && IsPos(k) && b[k].Open? && v !in b[k].opts
    requires forall a :: 0 <= a < |js| ==> IsPos(js[a])
    ensures StrikeList(b, v, js).0[k] == b[k]
    decreases |js|
  {
    if js != [] {
      var b1 := StrikeOne(b, v, js[0]).0;
      assert b1[k] == b[k];
      StrikeListUntouched(b1, v, js[1..], k);
    }
  }

  /** A listed open cell holding `v` and one other candidate `p` ends
      final with `p`, tagged Strike, or is left with `p` alone because
      some peer holds `p`. */
  lemma {:induction false} StrikeListPair(b: Board, v: int, js: seq<nat>, k: int, p: int)
    requires WF(b) && IsPos(k) && k in js
    requires forall a :: 0 <= a < |js| ==> IsPos(js[a])
    requires b[k].Open? && v in b[k].opts && |b[k].opts| == 2 && p in b[k].opts && p != v
    ensures var r := StrikeList(b, v, js).0;
            r[k] == Final(p, Strike) || (r[k] == Open([p]) && Conflict(r, k, p))
    decreases |js|
  {
    var b1 := StrikeOne(b, v, js[0]).0;
    var r := StrikeList(b1, v, js[1..]).0;
    assert StrikeList(b, v, js).0 == r;
    if js[0] == k {
      StrikeOnePair(b, v, k, p);
      if b1[k].Open? {
        assert b1[k] == Open([p]) && Conflict(b, k, p);
        StrikeListUntouched(b1, v, js[1..], k);
        KeepsTrans(b, b1, r);
        ConflictKeeps(b, r, k, p);
      }
    } else {
      assert b1[k] == b[k] && k in js[1..];
      StrikeListPair(b1, v, js[1..], k, p);
    }
  }

  /** Every finalisation made by a strike passes the conflict test, so a
      consistent board stays consistent. */
  lemma {:induction false} StrikeListConsistent(b: Board, v: int, js: seq<nat>)
    requires WF(b) && Consistent(b)
    requires forall a :: 0 <= a < |js| ==> IsPos(js[a])
    ensures Consistent(StrikeList(b, v, js).0)
    decreases |js|
  {
    if js != [] {
      var (b1, f1) := StrikeOne(b, v, js[0]);
      StrikeOneConsistent(b, v, js[0]);
      StrikeListConsistent(b1, v, js[1..]);
    }
  }

  /** strike_options: a final cell strikes its digit from its row, then its
      column, then its block; an open cell does nothing. */
  function StrikeAt(b: Board, i: int): (r: (Board, bool))
    requires WF(b) && IsPos(i)
    ensures |r.0| == 81 && WF(r.0) && Keeps(b, r.0)
    ensures b[i].Open? ==> r == (b, false)
    ensures r.1 <==> Progress(b, r.0)
  {
    if b[i].Final? then StrikeList(b, b[i].v, PeerList(i)) else (b, false)
  }

  /** The strike of a final cell, cell by cell: no open peer keeps its
      digit, non-peers are untouched, and a peer is finalised only when
      it was cut from two candidates to one. */
  lemma StrikeAtCells(b: Board, i: int)
    requires WF(b) && IsPos(i) && b[i].Final?
    ensures var r := StrikeAt(b, i).0;
            forall k :: 0 <= k < 81 && Peers(i, k) && r[k].Open? ==> b[i].v !in r[k].opts
    ensures var r := StrikeAt(b, i).0;
            forall k, x :: 0 <= k < 81 && r[k].Open? && x != b[i].v ==> (x in r[k].opts <==> x in b[k].opts)
    ensures var r := StrikeAt(b, i).0;
            forall k :: 0 <= k < 81 && !Peers(i, k) ==> r[k] == b[k]
    ensures var r := StrikeAt(b, i).0;
            forall k :: 0 <= k < 81 && b[k].Open? && r[k].Final? ==>
              && r[k].origin == Strike && Peers(i, k) && b[i].v in b[k].opts && |b[k].opts| == 2
              && r[k].v in b[k].opts && r[k].v != b[i].v
  {
    var ps := PeerList(i);
    StrikeListCells(b, b[i].v, ps);
  }

  /** The strike of one cell removes from the cells it leaves open only
      that cell's digit, which it holds as final. */
  lemma StrikeAtLost(b: Board, i: int)
    requires WF(b) && IsPos(i)
    ensures LostOnlyToFinals(b, StrikeAt(b, i).0)
  {
    var r := StrikeAt(b, i).0;
    if b[i].Final? {
      StrikeAtCells(b, i);
      forall k | 0 <= k < 81
        ensures CellLostToFinals(b, r, k)
      {
        if b[k].Open? && r[k].Open? {
          forall x | x in b[k].opts && x !in r[k].opts
            ensures Conflict(r, k, x)
          {
            assert x == b[i].v && r[i] == b[i];
          }
        }
      }
    }
  }

  /** The converse, peer by peer: an open peer k holding the struck digit
      and one other candidate `p` ends final with `p`, tagged Strike, or
      left with `p` alone while some peer of k holds `p`. */
  lemma StrikeAtPair(b: Board, i: int, k: int, p: int)
    requires WF(b) && IsPos(i) && b[i].Final? && IsPos(k) && Peers(i, k)
    requires b[k].Open? && b[i].v in b[k].opts && |b[k].opts| == 2 && p in b[k].opts && p != b[i].v
    ensures var r := StrikeAt(b, i).0;
            r[k] == Final(p, Strike) || (r[k] == Open([p]) && Conflict(r, k, p))
  {
    var ps := PeerList(i);
    assert k in ps;
    StrikeListPair(b, b[i].v, ps, k, p);
  }

  /** strike_options_all from position n on: each cell in turn, reading
      the board as the earlier cells left it. */
  function StrikeFrom(b: Board, n: nat): (r: (Board, bool))
    requires WF(b) && n <= 81
    ensures |r.0| == 81 && WF(r.0) && Keeps(b, r.0)
    ensures r.1 <==> Progress(b, r.0)
    decreases 81 - n
  {
    if n == 81 then (b, false)
    else
      var (b1, f1) := StrikeAt(b, n);
      var (b2, f2) := StrikeFrom(b1, n + 1);
      assert f1 ==> Progress(b, b2) by {
        if f1 {
          var k :| 0 <= k < 81 && b[k].Open? && b1[k].Final?;
          assert b2[k].Final?;
        }
      }
      assert Progress(b, b2) ==> f1 || f2 by {
        if Progress(b, b2) && !f1 {
          var k :| 0 <= k < 81 && b[k].Open? && b2[k].Final?;
          assert b1[k].Open?;
        }
      }
      (b2, f1 || f2)
  }

  /** The sweep removes from the cells it leaves open only digits that a
      peer holds as final when it ends. */
  lemma {:induction false} StrikeFromLost(b: Board, n: nat)
    requires WF(b) && n <= 81
    ensures LostOnlyToFinals(b, StrikeFrom(b, n).0)
    decreases 81 - n
  {
    if n < 81 {
      var b1 := StrikeAt(b, n).0;
      var b2 := StrikeFrom(b1, n + 1).0;
      StrikeAtLost(b, n);
      StrikeFromLost(b1, n + 1);
      LostOnlyToFinalsTrans(b, b1, b2);
    } else {
      assert forall k :: 0 <= k < 81 ==> CellLostToFinals(b, b, k);
    }
  }

  /** strike_options_all: one elimination sweep over the whole board. The
      flag says whether some open cell was finalised. */
  function StrikeAll(b: Board): (r: (Board, bool))
    requires WF(b)
    ensures |r.0| == 81 && WF(r.0) && Keeps(b, r.0)
    ensures r.1 <==> Progress(b, r.0)
    ensures forall k :: 0 <= k < 81 && b[k].Open? && r.0[k].Final? ==> r.0[k].origin == Strike
    ensures LostOnlyToFinals(b, r.0)
  {
    var r := StrikeFrom(b, 0);
    StrikeFromOrigins(b, 0);
    StrikeFromLost(b, 0);
    r
  }

  /** One step of the sweep: after a non-finalising strike at n and a
      non-finalising rest of the sweep, cell n's digit is gone from all
      its open peers. */
  lemma StrikeStepSettles(b: Board, n: nat)
    requires WF(b) && n < 81
    requires !StrikeAt(b, n).1 && !StrikeFrom(StrikeAt(b, n).0, n + 1).1
    ensures var b2 := StrikeFrom(StrikeAt(b, n).0, n + 1).0;
            b2[n].Final? ==> forall k :: 0 <= k < 81 && Peers(n, k) && b2[k].Open? ==> b2[n].v !in b2[k].opts
  {
    var b1 := StrikeAt(b, n).0;
    var b2 := StrikeFrom(b1, n + 1).0;
    if b2[n].Final? {
      assert b1[n].Final? && b[n].Final?;
      assert b2[n] == b1[n] == b[n];
      StrikeAtCells(b, n);
      forall k | 0 <= k < 81 && Peers(n, k) && b2[k].Open?
        ensures b2[n].v !in b2[k].opts
      {
        assert b1[k].Open?;
      }
    }
  }

  /** A sweep that finalises nothing leaves every cell it visited with
      its digit struck from all its open peers. */
  lemma {:induction false} StrikeFromSettles(b: Board, n: nat)
    requires WF(b) && n <= 81
    ensures var r := StrikeFrom(b, n);
            !r.1 ==> forall i, k :: n <= i < 81 && 0 <= k < 81 && Peers(i, k) && r.0[i].Final? && r.0[k].Open? ==> r.0[i].v !in r.0[k].opts
    decreases 81 - n
  {
    if n < 81 {
      var (b1, f1) := StrikeAt(b, n);
      var (b2, f2) := StrikeFrom(b1, n + 1);
      assert StrikeFrom(b, n) == (b2, f1 || f2);
      if !(f1 || f2) {
        StrikeFromSettles(b1, n + 1);
        StrikeStepSettles(b, n);
        forall i, k | n <= i < 81 && 0 <= k < 81 && Peers(i, k) && b2[i].Final? && b2[k].Open?
          ensures b2[i].v !in b2[k].opts
        {
          if i == n {
            assert b2[n].Final? && Peers(n, k) && b2[k].Open?;
          } else {
            assert n + 1 <= i;
          }
        }
      }
    }
  }

  /** An elimination sweep that finalises nothing reaches a settled board. */
  lemma StrikeAllSettles(b: Board)
    requires WF(b)
    ensures !StrikeAll(b).1 ==> Settled(StrikeAll(b).0)
  {
    StrikeFromSettles(b, 0);
  }

  /** The cells a sweep finalises are tagged as strikes. */
  lemma {:induction false} StrikeFromOrigins(b: Board, n: nat)
    requires WF(b) && n <= 81
    ensures forall k :: 0 <= k < 81 && b[k].Open? && StrikeFrom(b, n).0[k].Final? ==> StrikeFrom(b, n).0[k].origin == Strike
    decreases 81 - n
  {
    if n < 81 {
      var (b1, f1) := StrikeAt(b, n);
      StrikeFromOrigins(b1, n + 1);
      if b[n].Final? {
        StrikeAtCells(b, n);
      }
    }
  }

  /** A sweep keeps a consistent board consistent. */
  lemma {:induction false} StrikeFromConsistent(b: Board, n: nat)
    requires WF(b) && Consistent(b) && n <= 81
    ensures Consistent(StrikeFrom(b, n).0)
    decreases 81 - n
  {
    if n < 81 {
      var (b1, f1) := StrikeAt(b, n);
      if b[n].Final? {
        StrikeListConsistent(b, b[n].v, PeerList(n));
      }
      StrikeFromConsistent(b1, n + 1);
    }
  }

  /** Striking a digit no visited cell carries changes nothing. */
  lemma {:induction false} StrikeListNoop(b: Board, v: int, js: seq<nat>)
    requires WF(b)
    requires forall a :: 0 <= a < |js| ==> IsPos(js[a])
    requires forall k :: 0 <= k < 81 && k in js && b[k].Open? ==> v !in b[k].opts
    ensures StrikeList(b, v, js) == (b, false)
    decreases |js|
  {
    if js != [] {
      var j := js[0];
      assert RemoveOption(b[j], v) == (b[j], false);
      assert b[j := b[j]] == b;
      assert StrikeOne(b, v, j) == (b, false);
      assert forall a :: 1 <= a < |js| ==> js[a] == js[1..][a - 1];
      StrikeListNoop(b, v, js[1..]);
    }
  }

  /** On a settled board the elimination sweep is the identity. */
  lemma {:induction false} StrikeFromNoop(b: Board, n: nat)
    requires WF(b) && Settled(b) && n <= 81
    ensures StrikeFrom(b, n) == (b, false)
    decreases 81 - n
  {
    if n < 81 {
      if b[n].Final? {
        StrikeListNoop(b, b[n].v, PeerList(n));
      }
      StrikeFromNoop(b, n + 1);
    }
  }

  /** Strike-out is idempotent: a sweep that finalised nothing leaves a
      board on which another sweep changes nothing. */
  lemma StrikeAllIdempotent(b: Board)
    requires WF(b)
    ensures !StrikeAll(b).1 ==> StrikeAll(StrikeAll(b).0) == (StrikeAll(b).0, false)
  {
    StrikeAllSettles(b);
    if !StrikeAll(b).1 {
      StrikeFromNoop(StrikeAll(b).0, 0);
    }
  }

  /** On a settled board a full sweep changes nothing and reports no
      placement. */
  lemma StrikeAllNoop(b: Board)
    requires WF(b) && Settled(b)
    ensures StrikeAll(b) == (b, false)
  {
    StrikeFromNoop(b, 0);
  }

  /** A sweep keeps a consistent board consistent. */
  lemma StrikeAllConsistent(b: Board)
    requires WF(b)
    ensures Consistent(b) ==> Consistent(StrikeAll(b).0)
  {
    if Consistent(b) {
      StrikeFromConsistent(b, 0);
    }
  }
}
